=== FILE: README.md ===
# Market dashboard core, modelled in Dafny

The dashboard is a browser page. Nearly all of it is DOM glue, timers and
literal tables, but three pieces of it hold logic:

- the two market-hours classifiers;
- the change-percent arithmetic of one simulated tick;
- the display-text round trip. A number is rendered into a page element
  and later read back from that element's text with a regex strip filter
  and `parseFloat`. The element ids come from a slug of the index name.

This project models these pieces and then composes them into
`updateMarketData`'s fallback path: seed four index rows, then run one
`simulateRealTimeUpdates` pass.

Modules, one per concern:

- `MarketHours`: `isMarketOpen` (config.js) and the window check inside
  `updateMarketStatus` (script.js), over a (weekday, hour, minute) triple.
- `ChangeMath`: `calculateChange`, `getChangeColor`, the random movement,
  and the price recompute of one tick. Doubles are exact `real`s, and
  `Math.random()` is a parameter `r` in [0, 1).
- `Decimal`: the subset of `parseFloat` the page needs
  (`[-]digits[.digits]`) and `Number.prototype.toFixed(2)`, with the round
  trip between them.
- `Cleaning`: the global character-class replaces `/[$,]/g` and
  `/[+%-]/g`, and the corrected `/[+%]/g`.
- `ChangeDisplay`: the change text written after a tick (a '+' for a
  non-negative change, `toFixed(2)`, then '%') and the readers applied to
  price and change text.
- `Slug`: ASCII `toLowerCase`, first-occurrence `String.prototype.replace`,
  and the slug `name.toLowerCase().replace('& ', '').replace(' ', '-')`.
- `Dashboard`: the page as a map from element id to (text, class). It
  covers seeding one row or a table of rows, and stepping one index or a
  list of them.
- `MarketData`: the fallback table and the four simulated ids. It defines
  `updateMarketData` as written and as corrected, with end-to-end lemmas
  per index.

## Model

| member | source | states |
|---|---|---|
| MarketHours.ConfigIsMarketOpen | config.js:83-93 | Open iff the day is Monday to Friday and 570 ≤ 60·hour + minute ≤ 960, i.e. 09:30 through 16:00 with both ends included; never open at weekends |
| MarketHours.StatusWindowOpen | script.js:66-67 | Open iff the day is Monday to Friday and 510 ≤ 60·hour + minute < 960, i.e. from 08:30 up to but excluding 16:00 |
| MarketHours.UpdateMarketStatus | script.js:60-76 | The status is exactly one of the two pairs ("MARKETS OPEN", "market-open") and ("MARKETS CLOSED", "market-closed"); the label is open iff the class is; it is open iff the time is in the 08:30–16:00 weekday window |
| MarketHours.ConfigClosedOnWeekends | config.js:88-93 | On Sunday or Saturday `isMarketOpen` is false and the status is closed, whatever the hour and minute |
| MarketHours.ConfigBoundaries | config.js:89-91 | On any weekday: 09:29 closed, 09:30 open, 16:00 open, 16:01 closed |
| MarketHours.StatusBoundaries | script.js:66-67 | On any weekday: 08:29 closed, 08:30 open, 15:59 open, 16:00 closed |
| MarketHours.ClassifiersDisagreement | script.js:66-67 | Only the status check is open exactly on weekday times in [08:30, 09:30); only `isMarketOpen` is open exactly at weekday 16:00; they agree everywhere else (all three as iffs) |
| MarketHours.DisagreementByHour | script.js:66-67 | On a weekday the two differ iff the time is 08:30–08:59, 09:00–09:29 or 16:00 |
| MarketHours.CountDisagreeingMinutes | script.js:66-67 | Walking all 1440 minutes of a day finds 61 disagreeing minutes on a weekday and none at a weekend |
| ChangeMath.CalculateChange | config.js:113-115 | For a non-zero base, the result times the base is 100 times the difference |
| ChangeMath.CalculateChangeOfSame | config.js:113-115 | Equal old and new values give 0 |
| ChangeMath.CalculateChangeSign | config.js:113-115 | On a positive base the result is positive, zero or negative exactly when the new value is above, equal to or below the old one |
| ChangeMath.RecomputeThenCalculate | config.js:113-115 | `calculateChange(p, p·(1 + c/100)) = c` for p ≠ 0: it inverts the recompute of the tick |
| ChangeMath.CalculateThenRecompute | script.js:127 | Recomputing the price from `calculateChange(old, new)` gives back `new`: the other direction of the inverse |
| ChangeMath.GetChangeColor | config.js:118-120 | "positive" iff change ≥ 0, "negative" iff change < 0, so zero counts as positive |
| ChangeMath.StatChangeClass | script.js:132 | "stat-change positive" iff change ≥ 0, "stat-change negative" iff change < 0; the same rule seeds at line 99 |
| ChangeMath.Movement | script.js:125 | For r in [0, 1) the movement lies in [-0.05, 0.05) and is non-negative iff r ≥ 0.5 |
| ChangeMath.RecomputePrice | script.js:127 | On a positive price, the new price is at least the old one iff the change is non-negative, and equal iff the change is zero |
| ChangeMath.RecomputeKeepsSign | script.js:127 | For a change above -100% the recomputed price has the sign of the old price |
| ChangeMath.Step | script.js:125-127 | The new change lies in [c - 0.05, c + 0.05); on a positive price the price rises or holds iff the new change is non-negative; `calculateChange` of the old and new prices gives back the new change; a zero price stays zero; the change rises or holds exactly when the draw r is at least 0.5 |
| Decimal.ParseFraction | script.js:121-122 | A `whole.frac` numeral parses iff both runs are non-empty digit runs; its value lies in [whole, whole + 1) |
| Decimal.DigitsValueAppend | script.js:121-122 | The digits of `a` followed by those of `b` denote value(a)·10^|b| + value(b) |
| Decimal.ParseFractionValue | script.js:121-122 | `whole.frac` reads as the numeral with its dot removed divided by 10^|frac|, so "13750.89" is 1375089 / 100 |
| Decimal.ParseDecimal | script.js:121-122 | Text with a leading '-' reads as a non-positive number, and any other text as a non-negative one |
| Decimal.RoundHundredths | script.js:131 | The value `toFixed(2)` denotes is a whole number of hundredths, within half a hundredth of x, with a tie going away from zero (the offset lies in (-0.005, 0.005] for x ≥ 0 and in [-0.005, 0.005) for x < 0); it keeps the sign of x. Grid and offset together leave one possible value |
| Decimal.NatToText | script.js:131 | The shortest numeral of n: non-empty digits that read back as n, with no leading zero unless n < 10 |
| Decimal.ToFixed2 | script.js:131 | The text has a leading '-' iff x < 0 and a leading digit iff x ≥ 0; after the sign come one or more digits with no leading zero (a lone "0" aside), a '.', and exactly two digits |
| Decimal.ParseToFixed2 | script.js:131 | Reading `x.toFixed(2)` back gives the rounded value, sign included |
| Cleaning.RemoveAll | script.js:121-122 | No removed character remains; every other character is kept as often as it occurs; the result is a subsequence of the input, so order is kept |
| Cleaning.RemoveAllAppend | script.js:121-122 | The global replace distributes over concatenation |
| Cleaning.RemoveAllIdempotent | script.js:121-122 | Filtering twice is filtering once |
| Cleaning.CleanPrice | script.js:121 | No '$' or ',' is left; every other character is kept in multiplicity and in order |
| Cleaning.CleanPriceIdempotent | script.js:121 | Cleaning a price twice equals cleaning it once |
| Cleaning.CleanChange | script.js:122 | No '+', '%' or '-' is left; every other character is kept in multiplicity and in order |
| Cleaning.CleanChangeIdempotent | script.js:122 | Cleaning change text twice equals cleaning it once |
| Cleaning.CleanChangeForgetsSign | script.js:122 | A leading '-' and a leading '+' clean away alike |
| Cleaning.CleanSignedPercent | script.js:122 | For sign-free t, "-t%" and "+t%" both clean to t, so "-0.12%" and "+0.12%" both become "0.12" |
| Cleaning.CleanChangeSigned | script.js:122 | Corrected filter: no '+' or '%' is left, and every other character, '-' included, is kept |
| Cleaning.CleanSignedPercentKeepsSign | script.js:122 | With the corrected filter "-t%" cleans to "-t" and "+t%" to t |
| ChangeDisplay.RenderChange | script.js:131 | The written change text starts with '+' iff the change is ≥ 0 and with '-' iff it is < 0, and it always ends in '%' |
| ChangeDisplay.ReadPrice | script.js:121 | Price text without a '-' never reads as a negative number |
| ChangeDisplay.ReadPriceIgnoresSeparator | script.js:121 | Inserting a '$' or ',' anywhere in price text does not change what it reads as |
| ChangeDisplay.ReadPriceOfCleaned | script.js:121 | Reading price text that was already cleaned gives the same result |
| ChangeDisplay.ReadChangeSigned | script.js:122 | Corrected reader: text starting with '-' reads as ≤ 0, and text without a '-' reads as ≥ 0 |
| ChangeDisplay.ReadersAgreeWithoutMinus | script.js:122 | On text with no '-' the page's reader and the corrected one give the same result |
| ChangeDisplay.ReadChange | script.js:122 | Whatever the text, a change read back by the page is never negative |
| ChangeDisplay.ReadRenderedChange | script.js:122-131 | Change text written after a tick reads back as the magnitude of the rounded change |
| ChangeDisplay.ReadRenderedChangeSigned | script.js:122-131 | With the corrected reader, written change text reads back as the rounded change, sign included |
| ChangeDisplay.ReadBackLosesSign | script.js:122-131 | The page's reader and the corrected one agree on a rendered change iff the change is non-negative or rounds to zero |
| ChangeDisplay.ReadPlainPrice | script.js:121 | A price `whole.frac` reads as its numeral |
| ChangeDisplay.ReadGroupedPrice | script.js:121 | A price `a,b.frac` with one thousands separator reads as the numeral `ab.frac` |
| ChangeDisplay.ReadChangeNumeral | script.js:122 | "+w.f%" and "-w.f%" both read as w.f; the corrected reader gives w.f and -w.f |
| Slug.ToLower | script.js:93 | Same length; A–Z become a–z, and every other character is kept |
| Slug.IndexOf | script.js:93 | Returns the first position where the pattern occurs, or None iff it occurs nowhere |
| Slug.ReplaceFirst | script.js:93 | With no occurrence the text is unchanged; otherwise exactly the first occurrence is replaced, the length changes by |rep| - |pat|, and the characters of `pat` are exchanged for those of `rep` (as multisets) |
| Slug.SlotId | script.js:93-94 | The slug has no upper-case letter. It is two characters shorter than the name iff the lower-cased name contains "& ", and otherwise the same length. A name without a space slugs to its lower-case form |
| Slug.SlotIdDashesFirstSpace | script.js:93-94 | When the lower-cased name holds no "& " and its first space is at k, the slug is that name with position k turned into '-' |
| Slug.SlotIdDropsThenDashes | script.js:93-94 | When the lower-cased name first holds "& " at j, those two characters are removed, and the first space of the rest (at k) becomes '-' |
| Slug.SlotIdDropsOnly | script.js:93-94 | When the lower-cased name first holds "& " at j and no space remains once it is removed, the slug is the lower-cased name without those two characters |
| Slug.SlotIdKeepsLoneAmpersand | script.js:93-94 | When the lower-cased name contains an '&' but no "& ", the slug keeps the '&' and so differs from the corrected slug |
| Slug.SlotIdOfDow | script.js:93-94 | "DOW" slugs to "dow" |
| Slug.SlotIdOfNasdaq | script.js:93-94 | "NASDAQ" slugs to "nasdaq" |
| Slug.SlotIdOfVix | script.js:93-94 | "VIX" slugs to "vix" |
| Slug.SlotIdOfSAndP | script.js:93-94 | "S&P 500" slugs to "s&p-500": '& ' never occurs in "s&p 500" |
| Slug.SlotIdFixed | script.js:93-94 | Corrected slug: the result holds no '&' and no space; every other character of the lower-cased name is kept as often as it occurs and in its order |
| Slug.SlotIdFixedOfSAndP | script.js:93-94 | The corrected slug maps "S&P 500" to "sp500" |
| Dashboard.SlotIdsDistinct | script.js:117-118 | A price id is never a change id, and each id determines its index |
| Dashboard.SeedOne | script.js:96-100 | When both elements exist, it writes the price text (keeping the price class), the change text and the class picked by the raw change; otherwise the page is unchanged; no other element changes |
| Dashboard.SeedAll | script.js:92-101 | The set of elements is unchanged, and an element that no row's slug names keeps its text and class |
| Dashboard.SeedAllWrites | script.js:92-101 | With distinct slugs, each row whose elements exist ends up holding exactly that row's text and class |
| Dashboard.SimulateOne | script.js:117-133 | With both elements present, the price becomes the formatted stepped price (keeping its class) and the change text the rendered stepped change; the class is positive iff the text starts with '+' and negative iff it starts with '-'; with either element missing nothing changes; other elements never change |
| Dashboard.SimulateOneLocal | script.js:117-133 | What a step writes for an index depends only on that index's own elements |
| Dashboard.SimulateOneFrame | script.js:117-133 | Stepping one index leaves every other index's elements as they were |
| Dashboard.SimulateAll | script.js:113-135 | The set of elements is unchanged, and elements that belong to none of the indices keep their text and class |
| Dashboard.SimulateAllIndependent | script.js:113-135 | After the pass, each index's elements equal what stepping that index alone on the original page gives |
| Dashboard.SimulateAllAt | script.js:113-135 | After the pass, an index with both elements shows one step from the values it held before: the formatted price, the rendered change, and the class from the sign of the change |
| MarketData.DowSeedReads | script.js:85 | The DOW row reads as 34500.12 and +0.45 with both change readers |
| MarketData.SAndPSeedReads | script.js:86 | The S&P 500 row reads as 4450.67 and +0.32 |
| MarketData.NasdaqSeedReads | script.js:87 | The NASDAQ row's price reads as 13750.89; its change reads as +0.12 on the page, and -0.12 with the corrected reader |
| MarketData.VixSeedReads | script.js:88 | The VIX row's price reads as 15.34; its change reads as +2.1 on the page, and -2.1 with the corrected reader |
| MarketData.FallbackSlugs | script.js:93-94 | The four rows slug to "dow", "s&p-500", "nasdaq" and "vix", and the second differs from the simulated id "sp500" |
| MarketData.FixedSlugs | script.js:114 | Under the corrected slug, row i lands on the i-th simulated id |
| MarketData.FallbackSlugsDistinct | script.js:92-94 | No two rows share an element id, under either slug |
| MarketData.NoRowSlugsTo | script.js:92-101 | An id that no row slugs to keeps both its elements through seeding |
| MarketData.SimulatedSAndPNotSeeded | script.js:92-101 | Seeding never touches the "sp500" elements |
| MarketData.SeededReadable | script.js:120-122 | After seeding, every simulated index reads as numbers, provided "sp500" already did |
| MarketData.SeedThenSimulate | script.js:79-104 | Seeding followed by one pass keeps the set of elements, and changes no element that is neither seeded nor simulated |
| MarketData.UpdateMarketData | script.js:79-104 | As written: same frame property, with slugs from the page's own rule |
| MarketData.UpdateMarketDataFixed | script.js:79-104 | Corrected: only the elements of the four simulated ids can change |
| MarketData.SteppedIndex | script.js:113-135 | After the pass, each simulated index with both elements shows one step from the seeded values |
| MarketData.SAndPSeededNeverStepped | script.js:86-114 | As written, "s&p-500" ends holding "4,450.67" and "+0.32%" classed positive, untouched by the pass |
| MarketData.SimulatedSAndPIgnoresFallback | script.js:92-114 | As written, "sp500" ends exactly as one step of the pre-seeding page would leave it |
| MarketData.DowAfterUpdate | script.js:85-132 | DOW ends with change m = 0.45 + movement in [0.40, 0.50), rendered and classed positive, and price `format(34500.12·(1 + m/100))` |
| MarketData.NasdaqAlwaysClassedPositive | script.js:87-132 | As written, NASDAQ (seeded at -0.12%) ends with change 0.12 + movement in [0.07, 0.17), always classed positive |
| MarketData.VixAlwaysClassedPositive | script.js:88-132 | As written, VIX (seeded at -2.1%) ends with change 2.1 + movement in [2.05, 2.15), always classed positive |
| MarketData.SAndPSteppedFixed | script.js:86-132 | Corrected, "sp500" is stepped from 4450.67 and +0.32 |
| MarketData.NasdaqKeepsSignFixed | script.js:87-132 | Corrected, NASDAQ ends with change -0.12 + movement in [-0.17, -0.07), classed negative |
| MarketData.VixKeepsSignFixed | script.js:88-132 | Corrected, VIX ends with change -2.1 + movement in [-2.15, -2.05), classed negative |
| MarketData.DowDrawExample | script.js:125-131 | A draw of 0.8 moves DOW to +0.48% ("+0.48%" as text) and its unformatted price to 34500.12 × 1.0048 = 34665.720576 |

## Left out

- The DOM is modelled as a map from element id to (text, class). Element lookup and event listeners are outside the model.
- `setInterval`, `Promise.all` and the async orchestration in `initDashboard` are left out, as is the `try`/`catch` around `updateMarketData`. Once readable text is assumed, the fallback path throws nothing, provided `formatPrice` returns normally. A throw there would come before the change text is written, and it is not modelled.
- `Math.random()` becomes the draw parameter `r` (or the sequence `rs`, one draw per simulated index), constrained to [0, 1).
- `formatPrice` (called at script.js:130) is formatting outside the modelled core; it is the function parameter `format`.
- `Intl.NumberFormat` (`formatNumber`), `toLocaleString`/`toLocaleTimeString` (`updateTime`) and the America/New_York time-zone conversion are library formatting. They are left out: both classifiers start from the extracted day, hour and minute.
- MarketHours.ClassifiersDisagreement: the two classifiers read different clocks. `updateMarketStatus` reads the browser's local `getDay()`, `getHours()` and `getMinutes()` (script.js:62-67). `isMarketOpen` first converts to America/New_York (config.js:80-85). This lemma and `DisagreementByHour` and `CountDisagreeingMinutes` compare both on one (day, hour, minute), which matches the program only for a browser in the New York time zone. Also, neither file calls `isMarketOpen`.
- `fetchWithFallback` is a network call and is left out. `API_CONFIG`, `REFRESH_INTERVALS` and `API_ENDPOINTS` are static data and are left out too.
- `updateEconomicData`, `updateCommodities`, `updateForex`, `loadNews`, `updateChart` and `useFallbackData` are left out because they are outside the modelled core.
- NaN: the page never checks `parseFloat`'s result. Instead of inventing a skip rule, `SimulateOne` requires that an index's elements read as numbers (`Readable`).
- MarketData.UpdateMarketData: requires the same readability of the never-seeded "sp500" elements, which nothing in the code guarantees. The code has no rule for skipping an index whose text does not parse, so none is modelled.
- Decimal.ParseDecimal: only `[-]digits[.digits]` is parsed. Exponents, a leading '+', whitespace and prefix parsing of trailing garbage are not modelled, and such text reads as None.
- Decimal.ToFixed2: numbers are exact reals, so binary floating-point rounding is not modelled. A tie rounds up in magnitude, and values with |x| ≥ 1e21 (where `toFixed` switches to exponent form) are not treated specially.
- Slug.ToLower: only ASCII A–Z are lowered; Unicode case mapping is not modelled.
- ChangeMath.CalculateChange: a zero base is excluded by precondition, because the source divides by it unguarded. The resulting Infinity/NaN is not modelled.

## Findings

| source | as written | input that shows it | evidently intended | confidence | as-written member | corrected member |
|---|---|---|---|---|---|---|
| script.js:122 | Change text is cleaned with `/[+%-]/g`, which strips the minus sign before `parseFloat` | NASDAQ is seeded with "-0.12%" (script.js:87). It reads back as 0.12, so after one pass its change lies in [0.07, 0.17) and is classed "stat-change positive" | Strip only '+' and '%', so a negative change stays negative | high; not executed | ChangeDisplay.ReadRenderedChange, MarketData.NasdaqAlwaysClassedPositive, MarketData.VixAlwaysClassedPositive | ChangeDisplay.ReadRenderedChangeSigned, MarketData.NasdaqKeepsSignFixed, MarketData.VixKeepsSignFixed |
| script.js:93-94 | The slug of "S&P 500" applies `replace('& ', '')`, but the name holds "&P", so nothing matches and the result is "s&p-500" | Seeding writes "s&p-500-price"/"s&p-500-change". The pass looks up "sp500" (script.js:114), so the seeded S&P row is never stepped and "sp500" is never seeded | The slug "sp500", matching the simulated ids | high; not executed | Slug.SlotIdOfSAndP, MarketData.SAndPSeededNeverStepped, MarketData.SimulatedSAndPIgnoresFallback | Slug.SlotIdFixedOfSAndP, MarketData.FixedSlugs, MarketData.SAndPSteppedFixed |

=== FILE: change_display.dfy ===
/** Change-percent text as the dashboard writes it and reads it back.

  After a step, script.js writes `${x >= 0 ? '+' : ''}${x.toFixed(2)}%` to the
  change slot and reads it back on the next step as
  `parseFloat(text.replace(/[+%-]/g, ''))`. Because the minus sign is among
  the stripped characters, a negative change is read back as its magnitude.
 */
module ChangeDisplay {
  import opened Wrappers
  import opened Decimal
  import opened Cleaning

  /** The change text written after a step. */
  function RenderChange(x: real): (text: string)
    ensures |text| >= 5
    ensures text[0] == '+' <==> x >= 0.0
    ensures text[0] == '-' <==> x < 0.0
    ensures text[|text| - 1] == '%'
  {
    (if x >= 0.0 then "+" else "") + ToFixed2(x) + "%"
  }

  /** `parseFloat(text.replace(/[$,]/g, ''))` on a price slot: text
      without a minus sign never reads as a negative price. */
  function ReadPrice(text: string): (r: Option<real>)
    ensures (forall i :: 0 <= i < |text| ==> text[i] != '-') && r.Some? ==> r.value >= 0.0
  {
    RemoveAllAbsent(text, PriceStrip, '-');
    ParseDecimal(CleanPrice(text))
  }

  /** A '$' or ',' anywhere in price text is ignored by the read. */
  lemma ReadPriceIgnoresSeparator(a: string, b: string, c: char)
    requires c == '$' || c == ','
    ensures ReadPrice(a + [c] + b) == ReadPrice(a + b)
  {
    var ac := a + [c];
    assert a + [c] + b == ac + b;
    RemoveAllAppend(ac, b, PriceStrip);
    RemoveAllAppend(a, [c], PriceStrip);
    RemoveAllDropsChar(c, PriceStrip);
    assert RemoveAll(ac, PriceStrip) == RemoveAll(a, PriceStrip);
    RemoveAllAppend(a, b, PriceStrip);
  }

  /** Reading already-cleaned price text gives the same value. */
  lemma ReadPriceOfCleaned(text: string)
    ensures ReadPrice(CleanPrice(text)) == ReadPrice(text)
  {
    CleanPriceIdempotent(text);
  }

  /** `parseFloat(text.replace(/[+%-]/g, ''))` on a change slot: whatever
      the text, the value read back is never negative. */
  function ReadChange(text: string): (r: Option<real>)
    ensures r.Some? ==> r.value >= 0.0
  {
    var cleaned := CleanChange(text);
    assert |cleaned| > 0 ==> cleaned[0] != '-';
    ParseDecimal(cleaned)
  }

  /** The corrected read: only '+' and '%' are stripped, so text that
      starts with '-' reads as a non-positive change and text without a '-'
      as a non-negative one. */
  function ReadChangeSigned(text: string): (r: Option<real>)
    ensures |text| > 0 && text[0] == '-' && r.Some? ==> r.value <= 0.0
    ensures (forall i :: 0 <= i < |text| ==> text[i] != '-') && r.Some? ==> r.value >= 0.0
  {
    RemoveAllHead(text, SignedChangeStrip);
    RemoveAllAbsent(text, SignedChangeStrip, '-');
    ParseDecimal(CleanChangeSigned(text))
  }

  /** On text without a minus sign the page's read and the corrected read
      agree: the sign loss is the only difference between them. */
  lemma ReadersAgreeWithoutMinus(text: string)
    requires forall i :: 0 <= i < |text| ==> text[i] != '-'
    ensures ReadChange(text) == ReadChangeSigned(text)
  {
    RemoveAllAgree(text, ChangeStrip, SignedChangeStrip);
  }

  lemma RenderChangeParts(x: real)
    ensures x >= 0.0 ==> RenderChange(x) == "+" + FixedDigits(Hundredths(x)) + "%"
    ensures x < 0.0 ==> RenderChange(x) == "-" + FixedDigits(Hundredths(x)) + "%"
  {
  }

  /** As written: a rendered change reads back as the magnitude of the
      rounded value, so the sign of a negative change is lost. */
  lemma ReadRenderedChange(x: real)
    ensures ReadChange(RenderChange(x)) == Some(Abs(RoundHundredths(x)))
  {
    RenderChangeParts(x);
    RoundHundredthsParts(x);
    ReadUnsignedDigits(Hundredths(x));
  }

  /** Change text for n hundredths reads back as n / 100 whichever its sign. */
  lemma ReadUnsignedDigits(n: nat)
    ensures ReadChange("+" + FixedDigits(n) + "%") == Some(n as real / 100.0)
    ensures ReadChange("-" + FixedDigits(n) + "%") == Some(n as real / 100.0)
  {
    CleanSignedPercent(FixedDigits(n));
    ReadFixedDigits(n);
  }

  /** Corrected: a rendered change reads back as the rounded value, sign
      included. */
  lemma ReadRenderedChangeSigned(x: real)
    ensures ReadChangeSigned(RenderChange(x)) == Some(RoundHundredths(x))
  {
    RenderChangeParts(x);
    RoundHundredthsParts(x);
    ReadSignedDigits(Hundredths(x));
  }

  /** Signed change text for n hundredths reads back with its sign. */
  lemma ReadSignedDigits(n: nat)
    ensures ReadChangeSigned("+" + FixedDigits(n) + "%") == Some(n as real / 100.0)
    ensures ReadChangeSigned("-" + FixedDigits(n) + "%") == Some(-(n as real / 100.0))
  {
    var digits := FixedDigits(n);
    ReadFixedDigits(n);
    CleanSignedPercentKeepsSign(digits);
    ParseFixedDigits(n);
    assert ("-" + digits)[1..] == digits;
  }

  /** The unsigned `toFixed(2)` text of n hundredths reads as n / 100. */
  lemma ReadFixedDigits(n: nat)
    ensures ParseDecimal(FixedDigits(n)) == Some(n as real / 100.0)
  {
    ParseFixedDigits(n);
  }

  /** The two reads differ exactly on the changes that render with a '-'
      and do not round to zero. */
  lemma ReadBackLosesSign(x: real)
    ensures ReadChange(RenderChange(x)) == ReadChangeSigned(RenderChange(x)) <==> RoundHundredths(x) == 0.0 || x >= 0.0
  {
    ReadRenderedChange(x);
    ReadRenderedChangeSigned(x);
  }

  /** A plain price `whole.frac` reads as its numeral. */
  lemma ReadPlainPrice(whole: string, frac: string)
    requires 0 < |whole| && AllDigits(whole) && 0 < |frac| && AllDigits(frac)
    ensures ReadPrice(whole + "." + frac) == ParseFraction(whole, frac)
  {
    var t := whole + "." + frac;
    assert forall i :: 0 <= i < |t| ==> t[i] !in PriceStrip;
    RemoveAllKeeps(t, PriceStrip);
    ParseWholeDotFrac(whole, frac);
  }

  /** Cleaning drops the thousands separator between two clean parts. */
  lemma CleanGroupedPrice(a: string, t: string)
    requires forall i :: 0 <= i < |a| ==> a[i] !in PriceStrip
    requires forall i :: 0 <= i < |t| ==> t[i] !in PriceStrip
    ensures CleanPrice(a + "," + t) == a + t
  {
    var tail := "," + t;
    RemoveAllKeeps(t, PriceStrip);
    RemoveAllDropsChar(',', PriceStrip);
    RemoveAllAppend(",", t, PriceStrip);
    assert RemoveAll(tail, PriceStrip) == t;
    RemoveAllKeeps(a, PriceStrip);
    RemoveAllAppend(a, tail, PriceStrip);
    assert RemoveAll(a + tail, PriceStrip) == a + t;
    assert a + "," + t == a + tail;
  }

  /** A price with one thousands separator, `a,b.frac`, reads as the
      numeral `ab.frac`. */
  lemma ReadGroupedPrice(a: string, b: string, frac: string)
    requires 0 < |a| && AllDigits(a) && AllDigits(b) && 0 < |frac| && AllDigits(frac)
    ensures ReadPrice(a + "," + b + "." + frac) == ParseFraction(a + b, frac)
  {
    var t := b + "." + frac;
    assert forall i :: 0 <= i < |t| ==> t[i] !in PriceStrip;
    assert forall i :: 0 <= i < |a| ==> a[i] !in PriceStrip;
    CleanGroupedPrice(a, t);
    assert a + "," + b + "." + frac == a + "," + t;
    assert a + t == (a + b) + "." + frac;
    assert AllDigits(a + b);
    ParseWholeDotFrac(a + b, frac);
  }

  /** A change `+whole.frac%` or `-whole.frac%` reads as the unsigned
      numeral either way; the corrected read keeps the minus. */
  lemma ReadChangeNumeral(whole: string, frac: string)
    requires 0 < |whole| && AllDigits(whole) && 0 < |frac| && AllDigits(frac)
    ensures ParseFraction(whole, frac).Some?
    ensures ReadChange("+" + whole + "." + frac + "%") == ParseFraction(whole, frac)
    ensures ReadChange("-" + whole + "." + frac + "%") == ParseFraction(whole, frac)
    ensures ReadChangeSigned("+" + whole + "." + frac + "%") == ParseFraction(whole, frac)
    ensures ReadChangeSigned("-" + whole + "." + frac + "%") == Some(-ParseFraction(whole, frac).value)
  {
    var t := whole + "." + frac;
    assert forall i :: 0 <= i < |t| ==> t[i] !in ChangeStrip;
    CleanSignedPercent(t);
    CleanSignedPercentKeepsSign(t);
    assert "+" + whole + "." + frac + "%" == "+" + t + "%";
    assert "-" + whole + "." + frac + "%" == "-" + t + "%";
    ParseWholeDotFrac(whole, frac);
    assert ("-" + t)[1..] == t;
  }
}

=== FILE: change_math.dfy ===
/** Change-percent arithmetic: `calculateChange` and `getChangeColor` from
    config.js, and the numeric part of one instrument step of
    `simulateRealTimeUpdates` in script.js. JavaScript doubles are modelled
    as exact reals; `Math.random()` becomes the parameter `r` in [0, 1).
 */
module ChangeMath {

  /** `calculateChange(oldValue, newValue)`: the percentage by which
      `newValue` differs from `oldValue`. The source divides by `oldValue`
      without a guard, so a zero base is excluded here. */
  function CalculateChange(oldValue: real, newValue: real): (pct: real)
    requires oldValue != 0.0
    ensures pct * oldValue == 100.0 * (newValue - oldValue)
  {
    ((newValue - oldValue) / oldValue) * 100.0
  }

  /** `getChangeColor(change)`: zero counts as positive. */
  function GetChangeColor(change: real): (color: string)
    ensures color == "positive" <==> change >= 0.0
    ensures color == "negative" <==> change < 0.0
  {
    if change >= 0.0 then "positive" else "negative"
  }

  /** The class written to a change slot, both when it is seeded and after
      each simulated step: `stat-change ` followed by the same sign rule. */
  function StatChangeClass(change: real): (cls: string)
    ensures cls == "stat-change positive" <==> change >= 0.0
    ensures cls == "stat-change negative" <==> change < 0.0
  {
    "stat-change " + GetChangeColor(change)
  }

  /** `(Math.random() - 0.5) * 0.1`: a movement of less than 0.05 percentage
      points either way (the lower end reachable, the upper one not). */
  function Movement(r: real): (m: real)
    requires 0.0 <= r < 1.0
    ensures -0.05 <= m < 0.05
    ensures m >= 0.0 <==> r >= 0.5
  {
    (r - 0.5) * 0.1
  }

  /** `newPrice = currentPrice * (1 + newChange / 100)`. */
  function RecomputePrice(price: real, change: real): (next: real)
    ensures price > 0.0 ==> (next >= price <==> change >= 0.0)
    ensures price > 0.0 ==> (next == price <==> change == 0.0)
  {
    price * (1.0 + change / 100.0)
  }

  /** An instrument as read back from its display slots. */
  datatype Reading = Reading(price: real, change: real)

  /** One simulated step for one instrument: the change percent moves by a
      bounded random amount and the price is re-derived from the new change
      percent, applied to the current price. */
  function Step(current: Reading, r: real): (next: Reading)
    requires 0.0 <= r < 1.0
    ensures current.change - 0.05 <= next.change < current.change + 0.05
    ensures current.price > 0.0 ==> (next.price >= current.price <==> next.change >= 0.0)
    ensures current.price != 0.0 ==> CalculateChange(current.price, next.price) == next.change
    ensures current.price == 0.0 ==> next.price == 0.0
    ensures next.change >= current.change <==> r >= 0.5
  {
    var newChange := current.change + Movement(r);
    var next := Reading(RecomputePrice(current.price, newChange), newChange);
    if current.price != 0.0 then
      RecomputeThenCalculate(current.price, newChange);
      next
    else
      next
  }

  /** A change above -100% never turns a positive price non-positive, nor a
      negative one non-negative. */
  lemma RecomputeKeepsSign(price: real, change: real)
    requires change > -100.0
    ensures RecomputePrice(price, change) > 0.0 <==> price > 0.0
    ensures RecomputePrice(price, change) < 0.0 <==> price < 0.0
  {
    var factor := 1.0 + change / 100.0;
    SignOfProduct(price, factor);
    SignOfProduct(-price, factor);
  }

  /** No movement, no change. */
  lemma CalculateChangeOfSame(v: real)
    requires v != 0.0
    ensures CalculateChange(v, v) == 0.0
  {
  }

  /** On a positive base the percentage has the sign of the move. */
  lemma CalculateChangeSign(oldValue: real, newValue: real)
    requires oldValue > 0.0
    ensures CalculateChange(oldValue, newValue) > 0.0 <==> newValue > oldValue
    ensures CalculateChange(oldValue, newValue) == 0.0 <==> newValue == oldValue
    ensures CalculateChange(oldValue, newValue) < 0.0 <==> newValue < oldValue
  {
  }

  lemma SignOfProduct(a: real, b: real)
    requires b > 0.0
    ensures a * b > 0.0 <==> a > 0.0
    ensures a * b == 0.0 <==> a == 0.0
  {
    if a > 0.0 {
      assert a * b > 0.0;
    } else if a < 0.0 {
      assert (-a) * b > 0.0;
    }
  }

  /** `calculateChange` undoes the price recompute of the simulation step. */
  lemma RecomputeThenCalculate(price: real, change: real)
    requires price != 0.0
    ensures CalculateChange(price, RecomputePrice(price, change)) == change
  {
    var next := RecomputePrice(price, change);
    assert next - price == price * (change / 100.0);
    assert (next - price) / price == change / 100.0;
  }

  /** ... and the recompute undoes `calculateChange`. */
  lemma CalculateThenRecompute(oldValue: real, newValue: real)
    requires oldValue != 0.0
    ensures RecomputePrice(oldValue, CalculateChange(oldValue, newValue)) == newValue
  {
    var q := (newValue - oldValue) / oldValue;
    assert q * oldValue == newValue - oldValue;
    assert CalculateChange(oldValue, newValue) / 100.0 == q;
  }
}

=== FILE: cleaning.dfy ===
/** The character-class strip filters applied to display text before it is
    read back as a number: `replace(/[$,]/g, '')` on a price and
    `replace(/[+%-]/g, '')` on a change percent.
 */
module Cleaning {

  /** `a` is `b` with some characters deleted, the rest kept in order. */
  predicate IsSubsequence(a: string, b: string) {
    if |a| == 0 then true
    else if |b| == 0 then false
    else if a[0] == b[0] then IsSubsequence(a[1..], b[1..])
    else IsSubsequence(a, b[1..])
  }

  /** A global regex replace of a character class by the empty string: every
      character in `drop` is removed and every other character is kept, as
      often as it occurs and in its original order. */
  function RemoveAll(s: string, drop: set<char>): (r: string)
    ensures forall i :: 0 <= i < |r| ==> r[i] !in drop
    ensures forall c {:trigger multiset(r)[c]} :: c !in drop ==> multiset(r)[c] == multiset(s)[c]
    ensures IsSubsequence(r, s)
  {
    if |s| == 0 then
      []
    else
      assert s == [s[0]] + s[1..];
      var rest := RemoveAll(s[1..], drop);
      if s[0] in drop then
        rest
      else
        var r := [s[0]] + rest;
        assert r[1..] == rest;
        r
  }

  /** Removing characters distributes over concatenation. */
  lemma {:induction false} RemoveAllAppend(a: string, b: string, drop: set<char>)
    ensures RemoveAll(a + b, drop) == RemoveAll(a, drop) + RemoveAll(b, drop)
  {
    if |a| == 0 {
      assert a + b == b;
    } else {
      assert (a + b)[1..] == a[1..] + b;
      RemoveAllAppend(a[1..], b, drop);
    }
  }

  /** Text with nothing to remove passes through unchanged. */
  lemma {:induction false} RemoveAllKeeps(s: string, drop: set<char>)
    requires forall i :: 0 <= i < |s| ==> s[i] !in drop
    ensures RemoveAll(s, drop) == s
  {
    if |s| > 0 {
      RemoveAllKeeps(s[1..], drop);
      assert s == [s[0]] + s[1..];
    }
  }

  lemma RemoveAllDropsChar(c: char, drop: set<char>)
    requires c in drop
    ensures RemoveAll([c], drop) == []
  {
    assert [c][1..] == [];
  }

  /** Filtering twice is filtering once. */
  lemma {:induction false} RemoveAllIdempotent(s: string, drop: set<char>)
    ensures RemoveAll(RemoveAll(s, drop), drop) == RemoveAll(s, drop)
  {
    RemoveAllKeeps(RemoveAll(s, drop), drop);
  }

  /** Two filters that agree on every character of `s` leave the same text. */
  lemma {:induction false} RemoveAllAgree(s: string, a: set<char>, b: set<char>)
    requires forall i :: 0 <= i < |s| ==> (s[i] in a <==> s[i] in b)
    ensures RemoveAll(s, a) == RemoveAll(s, b)
  {
    if |s| > 0 {
      RemoveAllAgree(s[1..], a, b);
    }
  }

  /** A character the filter keeps stays at the front. */
  lemma RemoveAllHead(s: string, drop: set<char>)
    ensures |s| > 0 && s[0] !in drop ==> |RemoveAll(s, drop)| > 0 && RemoveAll(s, drop)[0] == s[0]
  {
  }

  /** A character absent from the input is absent from the output. */
  lemma RemoveAllAbsent(s: string, drop: set<char>, c: char)
    ensures (forall i :: 0 <= i < |s| ==> s[i] != c) ==>
              forall i :: 0 <= i < |RemoveAll(s, drop)| ==> RemoveAll(s, drop)[i] != c
  {
    var r := RemoveAll(s, drop);
    if forall i :: 0 <= i < |s| ==> s[i] != c {
      assert c !in multiset(s);
      if c !in drop {
        assert multiset(r)[c] == 0;
      }
      forall i | 0 <= i < |r|
        ensures r[i] != c
      {
        assert r[i] in multiset(r);
      }
    }
  }

  const PriceStrip: set<char> := {'$', ','}
  const ChangeStrip: set<char> := {'+', '%', '-'}

  /** `textContent.replace(/[$,]/g, '')` on a price slot. */
  function CleanPrice(s: string): (r: string)
    ensures forall i :: 0 <= i < |r| ==> r[i] != '$' && r[i] != ','
    ensures forall c {:trigger multiset(r)[c]} :: c != '$' && c != ',' ==> multiset(r)[c] == multiset(s)[c]
    ensures IsSubsequence(r, s)
  {
    RemoveAll(s, PriceStrip)
  }

  /** `textContent.replace(/[+%-]/g, '')` on a change slot: the minus sign
      is stripped along with '+' and '%'. */
  function CleanChange(s: string): (r: string)
    ensures forall i :: 0 <= i < |r| ==> r[i] != '+' && r[i] != '%' && r[i] != '-'
    ensures forall c {:trigger multiset(r)[c]} :: c !in ChangeStrip ==> multiset(r)[c] == multiset(s)[c]
    ensures IsSubsequence(r, s)
  {
    RemoveAll(s, ChangeStrip)
  }

  lemma CleanPriceIdempotent(s: string)
    ensures CleanPrice(CleanPrice(s)) == CleanPrice(s)
  {
    RemoveAllIdempotent(s, PriceStrip);
  }

  lemma CleanChangeIdempotent(s: string)
    ensures CleanChange(CleanChange(s)) == CleanChange(s)
  {
    RemoveAllIdempotent(s, ChangeStrip);
  }

  /** A leading '-' and a leading '+' clean away alike: a negative change
      and the positive change of the same size become the same text. */
  lemma CleanChangeForgetsSign(t: string)
    ensures CleanChange("-" + t) == CleanChange(t)
    ensures CleanChange("+" + t) == CleanChange(t)
  {
    RemoveAllAppend("-", t, ChangeStrip);
    RemoveAllAppend("+", t, ChangeStrip);
  }

  /** A rendered change `sign digits %` cleans to its digits whichever the
      sign: "-0.12%" and "+0.12%" both become "0.12". */
  lemma CleanSignedPercent(t: string)
    requires forall i :: 0 <= i < |t| ==> t[i] !in ChangeStrip
    ensures CleanChange("-" + t + "%") == t
    ensures CleanChange("+" + t + "%") == t
  {
    RemoveAllKeeps(t, ChangeStrip);
    RemoveAllDropsChar('%', ChangeStrip);
    RemoveAllAppend(t, "%", ChangeStrip);
    CleanChangeForgetsSign(t + "%");
    assert "-" + t + "%" == "-" + (t + "%");
    assert "+" + t + "%" == "+" + (t + "%");
  }

  /** The fix: strip only '+' and '%', so a leading '-' survives. */
  const SignedChangeStrip: set<char> := {'+', '%'}

  function CleanChangeSigned(s: string): (r: string)
    ensures forall i :: 0 <= i < |r| ==> r[i] != '+' && r[i] != '%'
    ensures forall c {:trigger multiset(r)[c]} :: c !in SignedChangeStrip ==> multiset(r)[c] == multiset(s)[c]
    ensures IsSubsequence(r, s)
  {
    RemoveAll(s, SignedChangeStrip)
  }

  lemma CleanChangeSignedKeepsSign(t: string)
    ensures CleanChangeSigned("-" + t) == "-" + CleanChangeSigned(t)
    ensures CleanChangeSigned("+" + t) == CleanChangeSigned(t)
  {
    RemoveAllAppend("-", t, SignedChangeStrip);
    RemoveAllAppend("+", t, SignedChangeStrip);
  }

  /** With the fix, `- digits %` keeps its minus and `+ digits %` drops its plus. */
  lemma CleanSignedPercentKeepsSign(t: string)
    requires forall i :: 0 <= i < |t| ==> t[i] !in ChangeStrip
    ensures CleanChangeSigned("-" + t + "%") == "-" + t
    ensures CleanChangeSigned("+" + t + "%") == t
  {
    RemoveAllKeeps(t, SignedChangeStrip);
    RemoveAllDropsChar('%', SignedChangeStrip);
    RemoveAllAppend(t, "%", SignedChangeStrip);
    CleanChangeSignedKeepsSign(t + "%");
    assert "-" + t + "%" == "-" + (t + "%");
    assert "+" + t + "%" == "+" + (t + "%");
  }
}

=== FILE: dashboard.dfy ===
/** The page elements the market-data code writes, and the two passes of
    `updateMarketData` over them: seeding from the fallback table and one
    simulated step per index. The page is a map from element id to the
    element's text and class; an id missing from the map is an element that
    `getElementById` does not find.
 */
module Dashboard {
  import opened Wrappers
  import opened ChangeMath
  import opened ChangeDisplay

  /** One element: its `textContent` and its `className`. */
  datatype Slot = Slot(text: string, className: string)

  type Display = map<string, Slot>

  function PriceSlot(ix: string): string {
    ix + "-price"
  }

  function ChangeSlot(ix: string): string {
    ix + "-change"
  }

  /** A price id is never a change id, and each determines its index. */
  lemma SlotIdsDistinct(a: string, b: string)
    ensures PriceSlot(a) != ChangeSlot(b)
    ensures PriceSlot(a) == PriceSlot(b) ==> a == b
    ensures ChangeSlot(a) == ChangeSlot(b) ==> a == b
  {
    assert PriceSlot(a)[|a|] == '-';
    if |a| == |b| + 1 {
      assert ChangeSlot(b)[|a|] == 'c';
    }
    assert PriceSlot(a)[..|a|] == a && PriceSlot(b)[..|b|] == b;
    assert ChangeSlot(a)[..|a|] == a && ChangeSlot(b)[..|b|] == b;
  }

  /** Both elements of an index are on the page: the `priceElement &&
      changeElement` guard. */
  predicate HasSlots(d: Display, ix: string) {
    PriceSlot(ix) in d && ChangeSlot(ix) in d
  }

  /** `d` and `e` hold the same elements for the slots of `ix`. */
  predicate SameSlots(d: Display, e: Display, ix: string) {
    && (PriceSlot(ix) in d <==> PriceSlot(ix) in e)
    && (ChangeSlot(ix) in d <==> ChangeSlot(ix) in e)
    && (PriceSlot(ix) in d ==> d[PriceSlot(ix)] == e[PriceSlot(ix)])
    && (ChangeSlot(ix) in d ==> d[ChangeSlot(ix)] == e[ChangeSlot(ix)])
  }

  predicate Distinct(ixs: seq<string>) {
    forall i, j :: 0 <= i < j < |ixs| ==> ixs[i] != ixs[j]
  }

  /** One row of the fallback table: display name, price text, change text
      and the raw change that picks the class. */
  datatype Seed = Seed(name: string, price: string, change: string, changeRaw: real)

  /** Seeding one index whose slug is `id`: when both elements exist, the
      price text, the change text and the change class are written; the
      price element keeps its class. Nothing else changes. */
  function SeedOne(d: Display, id: string, e: Seed): (d': Display)
    ensures d'.Keys == d.Keys
    ensures forall k :: k in d && k != PriceSlot(id) && k != ChangeSlot(id) ==> d'[k] == d[k]
    ensures !HasSlots(d, id) ==> d' == d
    ensures HasSlots(d, id) ==> d'[PriceSlot(id)] == Slot(e.price, d[PriceSlot(id)].className)
    ensures HasSlots(d, id) ==>
              d'[ChangeSlot(id)] == Slot(e.change, StatChangeClass(e.changeRaw))
  {
    if HasSlots(d, id) then
      SlotIdsDistinct(id, id);
      d[PriceSlot(id) := Slot(e.price, d[PriceSlot(id)].className)]
       [ChangeSlot(id) := Slot(e.change, StatChangeClass(e.changeRaw))]
    else
      d
  }

  /** No slug of a row of `table` names element `k`. */
  predicate UntouchedBySeeds(k: string, table: seq<Seed>, slug: string -> string) {
    forall e :: e in table ==> k != PriceSlot(slug(e.name)) && k != ChangeSlot(slug(e.name))
  }

  /** The `forEach` over the fallback table, with `slug` deriving the
      element-id prefix from a display name. */
  function SeedAll(d: Display, table: seq<Seed>, slug: string -> string): (d': Display)
    ensures d'.Keys == d.Keys
    ensures forall k :: k in d && UntouchedBySeeds(k, table, slug) ==> d'[k] == d[k]
    decreases |table|
  {
    if |table| == 0 then
      d
    else
      var d1 := SeedOne(d, slug(table[0].name), table[0]);
      var d' := SeedAll(d1, table[1..], slug);
      assert forall k :: UntouchedBySeeds(k, table, slug) ==> UntouchedBySeeds(k, table[1..], slug) by {
        forall k | UntouchedBySeeds(k, table, slug)
          ensures UntouchedBySeeds(k, table[1..], slug)
        {
          forall e | e in table[1..]
            ensures k != PriceSlot(slug(e.name)) && k != ChangeSlot(slug(e.name))
          {
            assert e in table;
          }
        }
      }
      d'
  }

  predicate DistinctSlugs(table: seq<Seed>, slug: string -> string) {
    forall i, j :: 0 <= i < j < |table| ==> slug(table[i].name) != slug(table[j].name)
  }

  /** With distinct slugs, every row whose elements exist ends up written,
      whatever the other rows do. */
  lemma {:induction false} SeedAllWrites(d: Display, table: seq<Seed>, slug: string -> string, i: nat)
    requires DistinctSlugs(table, slug)
    requires i < |table| && HasSlots(d, slug(table[i].name))
    ensures var id, d' := slug(table[i].name), SeedAll(d, table, slug);
            && d'[PriceSlot(id)] == Slot(table[i].price, d[PriceSlot(id)].className)
            && d'[ChangeSlot(id)] == Slot(table[i].change, StatChangeClass(table[i].changeRaw))
    decreases |table|
  {
    var id0 := slug(table[0].name);
    var d1 := SeedOne(d, id0, table[0]);
    var id := slug(table[i].name);
    if i == 0 {
      forall e | e in table[1..]
        ensures PriceSlot(id) != PriceSlot(slug(e.name)) && PriceSlot(id) != ChangeSlot(slug(e.name))
        ensures ChangeSlot(id) != PriceSlot(slug(e.name)) && ChangeSlot(id) != ChangeSlot(slug(e.name))
      {
        var j :| 0 <= j < |table[1..]| && table[1..][j] == e;
        assert table[j + 1] == e;
        SlotIdsDistinct(id, slug(e.name));
        SlotIdsDistinct(slug(e.name), id);
      }
      assert UntouchedBySeeds(PriceSlot(id), table[1..], slug);
      assert UntouchedBySeeds(ChangeSlot(id), table[1..], slug);
    } else {
      SlotIdsDistinct(id, id0);
      SlotIdsDistinct(id0, id);
      assert DistinctSlugs(table[1..], slug) by {
        forall a, b | 0 <= a < b < |table[1..]|
          ensures slug(table[1..][a].name) != slug(table[1..][b].name)
        {
          assert table[1..][a] == table[a + 1] && table[1..][b] == table[b + 1];
        }
      }
      assert table[1..][i - 1] == table[i];
      SeedAllWrites(d1, table[1..], slug, i - 1);
    }
  }

  /** Both elements of `ix` that exist hold text that reads as a number;
      `read` is the change-text reader in use. */
  predicate Readable(d: Display, ix: string, read: string -> Option<real>) {
    HasSlots(d, ix) ==>
      ReadPrice(d[PriceSlot(ix)].text).Some? && read(d[ChangeSlot(ix)].text).Some?
  }

  /** The values read back from the elements of `ix`. */
  function Current(d: Display, ix: string, read: string -> Option<real>): Reading
    requires HasSlots(d, ix) && Readable(d, ix, read)
  {
    Reading(ReadPrice(d[PriceSlot(ix)].text).value, read(d[ChangeSlot(ix)].text).value)
  }

  /** One index of `simulateRealTimeUpdates`: when both elements exist the
      price and change are read back, stepped with the random draw `r`, and
      written back (`format` stands for `formatPrice`); otherwise nothing
      changes. Elements of other indices are never touched, and the class
      written agrees with the sign shown in the change text. */
  function SimulateOne(d: Display, ix: string, r: real,
                       format: real -> string, read: string -> Option<real>): (d': Display)
    requires 0.0 <= r < 1.0
    requires Readable(d, ix, read)
    ensures d'.Keys == d.Keys
    ensures forall k :: k in d && k != PriceSlot(ix) && k != ChangeSlot(ix) ==> d'[k] == d[k]
    ensures !HasSlots(d, ix) ==> d' == d
    ensures HasSlots(d, ix) ==>
              var next := Step(Current(d, ix, read), r);
              && d'[PriceSlot(ix)] == Slot(format(next.price), d[PriceSlot(ix)].className)
              && d'[ChangeSlot(ix)].text == RenderChange(next.change)
    ensures HasSlots(d, ix) ==>
              (d'[ChangeSlot(ix)].className == "stat-change positive" <==>
               d'[ChangeSlot(ix)].text[0] == '+')
    ensures HasSlots(d, ix) ==>
              (d'[ChangeSlot(ix)].className == "stat-change negative" <==>
               d'[ChangeSlot(ix)].text[0] == '-')
  {
    if HasSlots(d, ix) then
      var next := Step(Current(d, ix, read), r);
      SlotIdsDistinct(ix, ix);
      ClassMatchesText(next.change);
      d[PriceSlot(ix) := Slot(format(next.price), d[PriceSlot(ix)].className)]
       [ChangeSlot(ix) := Slot(RenderChange(next.change), StatChangeClass(next.change))]
    else
      d
  }

  /** The class written for a change agrees with the sign its text shows. */
  lemma ClassMatchesText(c: real)
    ensures |RenderChange(c)| > 0
    ensures StatChangeClass(c) == "stat-change positive" <==> RenderChange(c)[0] == '+'
    ensures StatChangeClass(c) == "stat-change negative" <==> RenderChange(c)[0] == '-'
  {
  }

  /** What `SimulateOne` writes for `ix` depends only on the elements of `ix`. */
  lemma SimulateOneLocal(d: Display, e: Display, ix: string, r: real,
                         format: real -> string, read: string -> Option<real>)
    requires 0.0 <= r < 1.0
    requires Readable(d, ix, read) && SameSlots(d, e, ix)
    ensures Readable(e, ix, read)
    ensures SameSlots(SimulateOne(d, ix, r, format, read), SimulateOne(e, ix, r, format, read), ix)
  {
    SlotIdsDistinct(ix, ix);
  }

  /** Stepping `ix` leaves every other index's elements as they were. */
  lemma SimulateOneFrame(d: Display, ix: string, other: string, r: real,
                         format: real -> string, read: string -> Option<real>)
    requires 0.0 <= r < 1.0
    requires Readable(d, ix, read) && ix != other
    ensures SameSlots(d, SimulateOne(d, ix, r, format, read), other)
  {
    SlotIdsDistinct(ix, other);
    SlotIdsDistinct(other, ix);
  }

  predicate InUnitInterval(rs: seq<real>) {
    forall i :: 0 <= i < |rs| ==> 0.0 <= rs[i] < 1.0
  }

  /** No index of `ixs` owns element `k`. */
  predicate UntouchedBySteps(k: string, ixs: seq<string>) {
    forall ix :: ix in ixs ==> k != PriceSlot(ix) && k != ChangeSlot(ix)
  }

  /** `simulateRealTimeUpdates`: each index of `ixs` in turn, with its own
      random draw. Elements that belong to none of the indices keep their
      text and class. */
  function SimulateAll(d: Display, ixs: seq<string>, rs: seq<real>,
                       format: real -> string, read: string -> Option<real>): (d': Display)
    requires |rs| == |ixs| && InUnitInterval(rs) && Distinct(ixs)
    requires forall ix :: ix in ixs ==> Readable(d, ix, read)
    ensures d'.Keys == d.Keys
    ensures forall k :: k in d && UntouchedBySteps(k, ixs) ==> d'[k] == d[k]
    decreases |ixs|
  {
    if |ixs| == 0 then
      d
    else
      var d1 := SimulateOne(d, ixs[0], rs[0], format, read);
      RestStillReadable(d, ixs, rs[0], format, read);
      var d' := SimulateAll(d1, ixs[1..], rs[1..], format, read);
      assert forall k :: UntouchedBySteps(k, ixs) ==> UntouchedBySteps(k, ixs[1..]) by {
        forall k | UntouchedBySteps(k, ixs)
          ensures UntouchedBySteps(k, ixs[1..])
        {
          forall ix | ix in ixs[1..]
            ensures k != PriceSlot(ix) && k != ChangeSlot(ix)
          {
            assert ix in ixs;
          }
        }
      }
      d'
  }

  lemma DistinctTail(ixs: seq<string>)
    requires |ixs| > 0 && Distinct(ixs)
    ensures Distinct(ixs[1..])
  {
    forall a, b | 0 <= a < b < |ixs[1..]|
      ensures ixs[1..][a] != ixs[1..][b]
    {
      assert ixs[1..][a] == ixs[a + 1] && ixs[1..][b] == ixs[b + 1];
    }
  }

  lemma ReadableTransfers(d: Display, e: Display, ix: string, read: string -> Option<real>)
    requires Readable(d, ix, read) && SameSlots(d, e, ix)
    ensures Readable(e, ix, read)
  {
  }

  /** After the first index is stepped, the remaining ones still read. */
  lemma RestStillReadable(d: Display, ixs: seq<string>, r: real,
                          format: real -> string, read: string -> Option<real>)
    requires |ixs| > 0 && 0.0 <= r < 1.0 && Distinct(ixs)
    requires forall ix :: ix in ixs ==> Readable(d, ix, read)
    ensures Distinct(ixs[1..])
    ensures forall ix :: ix in ixs[1..] ==>
              Readable(SimulateOne(d, ixs[0], r, format, read), ix, read)
  {
    DistinctTail(ixs);
    var d1 := SimulateOne(d, ixs[0], r, format, read);
    forall ix | ix in ixs[1..]
      ensures Readable(d1, ix, read)
    {
      var j :| 0 <= j < |ixs[1..]| && ixs[1..][j] == ix;
      assert ixs[j + 1] == ix;
      SimulateOneFrame(d, ixs[0], ix, r, format, read);
      ReadableTransfers(d, d1, ix, read);
    }
  }

  /** The indices are independent: after the whole pass, the elements of
      each index are exactly what stepping that index alone, on the page as
      it was before the pass, would have produced. */
  lemma {:induction false} SimulateAllIndependent(d: Display, ixs: seq<string>, rs: seq<real>,
                                                  format: real -> string,
                                                  read: string -> Option<real>, i: nat)
    requires |rs| == |ixs| && InUnitInterval(rs) && Distinct(ixs)
    requires forall ix :: ix in ixs ==> Readable(d, ix, read)
    requires i < |ixs|
    ensures SameSlots(SimulateAll(d, ixs, rs, format, read),
                      SimulateOne(d, ixs[i], rs[i], format, read), ixs[i])
    decreases |ixs|
  {
    var d1 := SimulateOne(d, ixs[0], rs[0], format, read);
    RestStillReadable(d, ixs, rs[0], format, read);
    var d' := SimulateAll(d1, ixs[1..], rs[1..], format, read);
    assert d' == SimulateAll(d, ixs, rs, format, read);
    var ix := ixs[i];
    if i == 0 {
      forall other | other in ixs[1..]
        ensures PriceSlot(ix) != PriceSlot(other) && PriceSlot(ix) != ChangeSlot(other)
        ensures ChangeSlot(ix) != PriceSlot(other) && ChangeSlot(ix) != ChangeSlot(other)
      {
        var j :| 0 <= j < |ixs[1..]| && ixs[1..][j] == other;
        assert ixs[j + 1] == other;
        SlotIdsDistinct(ix, other);
        SlotIdsDistinct(other, ix);
      }
      assert UntouchedBySteps(PriceSlot(ix), ixs[1..]);
      assert UntouchedBySteps(ChangeSlot(ix), ixs[1..]);
    } else {
      assert ixs[1..][i - 1] == ix;
      assert rs[1..][i - 1] == rs[i];
      SimulateAllIndependent(d1, ixs[1..], rs[1..], format, read, i - 1);
      SimulateOneFrame(d, ixs[0], ix, rs[0], format, read);
      SimulateOneLocal(d, d1, ix, rs[i], format, read);
    }
  }

  /** The end state of one index after the whole pass: one step from the
      values the page held for it before the pass. */
  lemma SimulateAllAt(d: Display, ixs: seq<string>, rs: seq<real>,
                      format: real -> string, read: string -> Option<real>, i: nat)
    requires |rs| == |ixs| && InUnitInterval(rs) && Distinct(ixs)
    requires forall ix :: ix in ixs ==> Readable(d, ix, read)
    requires i < |ixs| && HasSlots(d, ixs[i])
    ensures var ix, d' := ixs[i], SimulateAll(d, ixs, rs, format, read);
            var next := Step(Current(d, ix, read), rs[i]);
            && d'[PriceSlot(ix)] == Slot(format(next.price), d[PriceSlot(ix)].className)
            && d'[ChangeSlot(ix)].text == RenderChange(next.change)
            && (d'[ChangeSlot(ix)].className == "stat-change positive" <==> next.change >= 0.0)
            && (d'[ChangeSlot(ix)].className == "stat-change negative" <==> next.change < 0.0)
  {
    SimulateAllIndependent(d, ixs, rs, format, read, i);
  }
}

=== FILE: decimal.dfy ===
/** Decimal text for the change-percent values the dashboard shows.

  Two JavaScript primitives are modelled on exact reals: `toFixed(2)`, which
  renders a change percent with two decimals, and the part of `parseFloat`
  that reads such a rendering back. The model covers plain decimal numerals
  only; exponents, `Infinity` and NaN are outside it.
 */
module Decimal {
  import opened Wrappers

  predicate IsDigit(c: char) {
    '0' <= c <= '9'
  }

  predicate AllDigits(s: string) {
    forall i :: 0 <= i < |s| ==> IsDigit(s[i])
  }

  function DigitValue(c: char): nat
    requires IsDigit(c)
  {
    c as int - '0' as int
  }

  function DigitChar(d: nat): (c: char)
    requires d < 10
    ensures IsDigit(c) && DigitValue(c) == d
  {
    ('0' as int + d) as char
  }

  function Pow10(k: nat): (p: nat)
    ensures p >= 1
  {
    if k == 0 then 1 else 10 * Pow10(k - 1)
  }

  /** The value of a string of decimal digits, most significant digit first. */
  function DigitsValue(s: string): nat
    requires AllDigits(s)
  {
    if |s| == 0 then 0 else 10 * DigitsValue(s[..|s| - 1]) + DigitValue(s[|s| - 1])
  }

  /** Appending a digit shifts the value one decimal place. */
  lemma DigitsValueSnoc(s: string, c: char)
    requires AllDigits(s) && IsDigit(c)
    ensures AllDigits(s + [c])
    ensures DigitsValue(s + [c]) == 10 * DigitsValue(s) + DigitValue(c)
  {
    assert (s + [c])[..|s|] == s;
  }

  /** The shortest decimal numeral of `n`; `DigitsValue` reads it back. */
  function NatToText(n: nat): (s: string)
    ensures 0 < |s| && AllDigits(s)
    ensures DigitsValue(s) == n
    ensures |s| == 1 || s[0] != '0'
  {
    if n < 10 then
      [DigitChar(n)]
    else
      var prefix := NatToText(n / 10);
      var s := prefix + [DigitChar(n % 10)];
      assert s[..|s| - 1] == prefix;
      s
  }

  /** Index of the first '.' in `s`, or `|s|` when there is none. */
  function DotIndex(s: string): (k: nat)
    ensures k <= |s|
    ensures k < |s| ==> s[k] == '.'
    ensures forall j :: 0 <= j < k ==> s[j] != '.'
  {
    if |s| == 0 then 0
    else if s[0] == '.' then 0
    else 1 + DotIndex(s[1..])
  }

  /** A k-digit numeral is below 10^k. */
  lemma {:induction false} DigitsBelowPow10(s: string)
    requires AllDigits(s)
    ensures DigitsValue(s) < Pow10(|s|)
  {
    if |s| > 0 {
      DigitsBelowPow10(s[..|s| - 1]);
    }
  }

  lemma TenTimes(a: nat, b: nat)
    ensures 10 * (a * b) == a * (10 * b)
  {
  }

  /** Appending a run of digits shifts the value by as many decimal places. */
  lemma {:induction false} DigitsValueAppend(a: string, b: string)
    requires AllDigits(a) && AllDigits(b)
    ensures AllDigits(a + b)
    ensures DigitsValue(a + b) == DigitsValue(a) * Pow10(|b|) + DigitsValue(b)
  {
    if |b| > 0 {
      var b' := b[..|b| - 1];
      var c := b[|b| - 1];
      assert b == b' + [c];
      assert a + b == (a + b') + [c];
      DigitsValueAppend(a, b');
      DigitsValueSnoc(a + b', c);
      DigitsValueSnoc(b', c);
      var va, vb', p' := DigitsValue(a), DigitsValue(b'), Pow10(|b'|);
      assert Pow10(|b|) == 10 * p';
      assert DigitsValue(a + b) == 10 * (va * p' + vb') + DigitValue(c);
      TenTimes(va, p');
    } else {
      assert a + b == a;
    }
  }

  lemma FracBelowOne(frac: string)
    requires AllDigits(frac)
    ensures DigitsValue(frac) as real / Pow10(|frac|) as real < 1.0
  {
    DigitsBelowPow10(frac);
    QuotientBelowOne(DigitsValue(frac) as real, Pow10(|frac|) as real);
  }

  lemma QuotientBelowOne(a: real, p: real)
    requires 0.0 <= a < p
    ensures a / p < 1.0
  {
    var q := a / p;
    assert (1.0 - q) * p == p - a > 0.0;
  }

  /** A run of digits with no dot. */
  function ParseWhole(s: string): (r: Option<real>)
    ensures r.Some? <==> 0 < |s| && AllDigits(s)
    ensures r.Some? ==> r.value >= 0.0
  {
    if 0 < |s| && AllDigits(s) then Some(DigitsValue(s) as real) else None
  }

  /** The two digit runs on either side of the first dot. */
  function ParseFraction(whole: string, frac: string): (r: Option<real>)
    ensures r.Some? <==> 0 < |whole| && AllDigits(whole) && 0 < |frac| && AllDigits(frac)
    ensures r.Some? ==> DigitsValue(whole) as real <= r.value < DigitsValue(whole) as real + 1.0
  {
    if 0 < |whole| && AllDigits(whole) && 0 < |frac| && AllDigits(frac) then
      FracBelowOne(frac);
      Some(DigitsValue(whole) as real + DigitsValue(frac) as real / Pow10(|frac|) as real)
    else
      None
  }

  lemma ProductAsReal(a: nat, b: nat)
    ensures (a * b) as real == a as real * b as real
  {
  }

  lemma ScaleBack(w: real, f: real, p: real)
    requires p > 0.0
    ensures w + f / p == (w * p + f) / p
  {
    assert (w + f / p) * p == w * p + f;
  }

  /** `whole.frac` denotes the numeral with its dot removed, scaled down by
      one decimal place per fraction digit: "13750.89" is 1375089 / 100. */
  lemma ParseFractionValue(whole: string, frac: string)
    requires 0 < |whole| && AllDigits(whole) && 0 < |frac| && AllDigits(frac)
    ensures AllDigits(whole + frac)
    ensures ParseFraction(whole, frac) == Some(DigitsValue(whole + frac) as real / Pow10(|frac|) as real)
  {
    DigitsValueAppend(whole, frac);
    ShiftedValue(DigitsValue(whole), DigitsValue(frac), Pow10(|frac|));
  }

  lemma ShiftedValue(w: nat, f: nat, p: nat)
    requires p > 0
    ensures w as real + f as real / p as real == (w * p + f) as real / p as real
  {
    ProductAsReal(w, p);
    ScaleBack(w as real, f as real, p as real);
  }

  /** An unsigned numeral `digits` or `digits.digits`. */
  function ParseUnsigned(s: string): (r: Option<real>)
    ensures r.Some? ==> r.value >= 0.0
  {
    var k := DotIndex(s);
    if k == |s| then ParseWhole(s) else ParseFraction(s[..k], s[k + 1..])
  }

  /** `parseFloat` on text that is an optionally negated unsigned numeral;
      any other text reads as None (where `parseFloat` would give NaN or
      read only a prefix). */
  function ParseDecimal(s: string): (r: Option<real>)
    ensures |s| > 0 && s[0] == '-' && r.Some? ==> r.value <= 0.0
    ensures (|s| == 0 || s[0] != '-') && r.Some? ==> r.value >= 0.0
  {
    if |s| > 0 && s[0] == '-' then
      match ParseUnsigned(s[1..])
      case Some(v) => Some(-v)
      case None => None
    else
      ParseUnsigned(s)
  }

  function Abs(x: real): real {
    if x < 0.0 then -x else x
  }

  /** The integer nearest to 100·|x|, the larger one on a tie: the digits
      `toFixed(2)` prints. */
  function Hundredths(x: real): (n: nat)
    ensures n as real - 0.5 <= 100.0 * Abs(x) < n as real + 0.5
  {
    (100.0 * Abs(x) + 0.5).Floor
  }

  /** The value that `toFixed(2)` text denotes: `x` rounded to hundredths,
      keeping the sign of `x` (a negative `x` that rounds to zero gives 0). */
  function RoundHundredths(x: real): (v: real)
    ensures (100.0 * v).Floor as real == 100.0 * v
    ensures x >= 0.0 ==> -0.005 < v - x <= 0.005
    ensures x < 0.0 ==> -0.005 <= v - x < 0.005
    ensures x >= 0.0 ==> v >= 0.0
    ensures x < 0.0 ==> v <= 0.0
  {
    var n := Hundredths(x);
    var k: int := if x < 0.0 then -(n as int) else n as int;
    RoundingOffset(x, k);
    k as real / 100.0
  }

  /** k hundredths is on the grid and within half a hundredth of x. */
  lemma RoundingOffset(x: real, k: int)
    requires k == if x < 0.0 then -(Hundredths(x) as int) else Hundredths(x) as int
    ensures (100.0 * (k as real / 100.0)).Floor as real == 100.0 * (k as real / 100.0)
    ensures x >= 0.0 ==> -0.005 < k as real / 100.0 - x <= 0.005
    ensures x < 0.0 ==> -0.005 <= k as real / 100.0 - x < 0.005
  {
    var v := k as real / 100.0;
    assert 100.0 * v == k as real;
    assert 100.0 * (v - x) == k as real - 100.0 * x;
  }

  lemma RoundHundredthsParts(x: real)
    ensures x < 0.0 ==> RoundHundredths(x) == -(Hundredths(x) as real / 100.0)
    ensures x >= 0.0 ==> RoundHundredths(x) == Hundredths(x) as real / 100.0
    ensures Abs(RoundHundredths(x)) == Hundredths(x) as real / 100.0
  {
  }

  /** `x.toFixed(2)`: a '-' exactly when x < 0, the whole part of the rounded
      magnitude, a '.', and two decimals. */
  function ToFixed2(x: real): (s: string)
    ensures |s| >= 4 && s[|s| - 3] == '.' && IsDigit(s[|s| - 2]) && IsDigit(s[|s| - 1])
    ensures s[0] == '-' <==> x < 0.0
    ensures x >= 0.0 <==> IsDigit(s[0])
    ensures var u := if x < 0.0 then s[1..] else s;
              |u| >= 4 && (forall i :: 0 <= i < |u| - 3 ==> IsDigit(u[i])) && (u[0] != '0' || |u| == 4)
  {
    var unsigned := FixedDigits(Hundredths(x));
    if x < 0.0 then "-" + unsigned else unsigned
  }

  /** In `whole.frac` the first dot is the one after `whole`. */
  lemma DotAfterDigits(whole: string, frac: string)
    requires AllDigits(whole)
    ensures DotIndex(whole + "." + frac) == |whole|
  {
    var s := whole + "." + frac;
    var k := DotIndex(s);
    assert s[|whole|] == '.';
  }

  /** A numeral `whole.frac` reads as whole + frac / 10^|frac|. */
  lemma ParseWholeDotFrac(whole: string, frac: string)
    requires 0 < |whole| && AllDigits(whole)
    requires 0 < |frac| && AllDigits(frac)
    ensures ParseUnsigned(whole + "." + frac) == ParseFraction(whole, frac)
  {
    var s := whole + "." + frac;
    DotAfterDigits(whole, frac);
    assert s[..|whole|] == whole;
    assert s[|whole| + 1..] == frac;
  }

  lemma TwoDigitsValue(a: char, b: char)
    requires IsDigit(a) && IsDigit(b)
    ensures DigitsValue([a, b]) == 10 * DigitValue(a) + DigitValue(b)
  {
    var s := [a, b];
    assert s[..1] == [a];
    assert [a][..0] == [];
    assert DigitsValue([a]) == DigitValue(a);
  }

  lemma HundredthsSplit(n: nat)
    ensures (n / 100) as real + (n % 100) as real / 100.0 == n as real / 100.0
  {
    assert n == 100 * (n / 100) + n % 100;
  }

  /** The unsigned text `toFixed(2)` prints for n hundredths. */
  function FixedDigits(n: nat): (s: string)
    ensures |s| >= 4 && IsDigit(s[0]) && s[|s| - 3] == '.'
    ensures IsDigit(s[|s| - 2]) && IsDigit(s[|s| - 1])
    ensures forall i :: 0 <= i < |s| ==> IsDigit(s[i]) || s[i] == '.'
    ensures forall i :: 0 <= i < |s| - 3 ==> IsDigit(s[i])
    ensures s[0] != '0' || |s| == 4
  {
    NatToText(n / 100) + "." + [DigitChar(n % 100 / 10), DigitChar(n % 10)]
  }

  lemma ParseFixedDigits(n: nat)
    ensures ParseUnsigned(FixedDigits(n)) == Some(n as real / 100.0)
  {
    var whole := NatToText(n / 100);
    var frac := [DigitChar(n % 100 / 10), DigitChar(n % 10)];
    ParseWholeDotFrac(whole, frac);
    TwoDigitsValue(frac[0], frac[1]);
    LastTwoDigits(n);
    var w, f := DigitsValue(whole), DigitsValue(frac);
    assert w == n / 100 && f == n % 100;
    assert AllDigits(frac);
    assert Pow10(|frac|) as real == 100.0;
    assert ParseFraction(whole, frac).Some?;
    assert ParseFraction(whole, frac).value == w as real + f as real / Pow10(|frac|) as real;
    assert ParseFraction(whole, frac) == Some(w as real + f as real / 100.0);
    HundredthsSplit(n);
  }

  lemma LastTwoDigits(n: nat)
    ensures 10 * (n % 100 / 10) + n % 10 == n % 100
  {
    var q, m := n / 100, n % 100;
    assert n == 100 * q + m;
    assert n == 10 * (10 * q + m / 10) + m % 10;
  }

  /** Reading `toFixed(2)` text back with `parseFloat` gives the rounded
      value, sign included. */
  lemma ParseToFixed2(x: real)
    ensures ParseDecimal(ToFixed2(x)) == Some(RoundHundredths(x))
  {
    var u := FixedDigits(Hundredths(x));
    ParseFixedDigits(Hundredths(x));
    if x < 0.0 {
      assert ("-" + u)[1..] == u;
    }
  }
}

=== FILE: market_data.dfy ===
/** `updateMarketData` with its fallback table, followed by
    `simulateRealTimeUpdates` over the four index ids.

  The table rows are slugged by `SlotId` ("DOW" -> "dow", "S&P 500" ->
  "s&p-500", ...), while the simulation walks the fixed ids "dow", "sp500",
  "nasdaq", "vix". The step reads change text with the minus sign stripped.
  `UpdateMarketData` is the code as written; `UpdateMarketDataFixed` uses
  the corrected slug and the sign-keeping read.
 */
module MarketData {
  import opened Wrappers
  import opened Decimal
  import opened ChangeMath
  import opened ChangeDisplay
  import opened Slug
  import opened Dashboard

  const FallbackIndices: seq<Seed> := [
    Seed("DOW", "34,500.12", "+0.45%", 0.45),
    Seed("S&P 500", "4,450.67", "+0.32%", 0.32),
    Seed("NASDAQ", "13,750.89", "-0.12%", -0.12),
    Seed("VIX", "15.34", "-2.1%", -2.1)
  ]

  /** The ids `simulateRealTimeUpdates` looks up. */
  const SimulatedIndices: seq<string> := ["dow", "sp500", "nasdaq", "vix"]

  lemma SimulatedIndicesDistinct()
    ensures Distinct(SimulatedIndices)
  {
  }

  lemma TwoDecimals(whole: string, frac: string, w: nat, f: nat)
    requires 0 < |whole| && AllDigits(whole) && |frac| == 2 && AllDigits(frac)
    requires DigitsValue(whole) == w && DigitsValue(frac) == f
    ensures ParseFraction(whole, frac) == Some(w as real + f as real / 100.0)
  {
    assert Pow10(|frac|) == 100;
  }

  /** The digits on either side of a thousands separator read as one
      numeral. */
  lemma GroupedValue(a: string, b: string, va: nat, vb: nat)
    requires AllDigits(a) && AllDigits(b) && |b| == 3
    requires DigitsValue(a) == va && DigitsValue(b) == vb
    ensures AllDigits(a + b) && DigitsValue(a + b) == 1000 * va + vb
  {
    DigitsValueAppend(a, b);
    assert Pow10(3) == 1000;
  }

  lemma DowPriceReads(price: string)
    requires price == "34,500.12"
    ensures ReadPrice(price) == Some(34500.12)
  {
    ReadGroupedPrice("34", "500", "12");
    assert "34" + "," + "500" + "." + "12" == price;
    assert "34" + "500" == "34500";
    GroupedValue("34", "500", 34, 500);
    assert AllDigits("12") && DigitsValue("12") == 12;
    TwoDecimals("34500", "12", 34500, 12);
  }

  /** The DOW row reads back as 34500.12 and +0.45. */
  lemma DowSeedReads(price: string, change: string)
    requires price == "34,500.12" && change == "+0.45%"
    ensures ReadPrice(price) == Some(34500.12)
    ensures ReadChange(change) == Some(0.45) && ReadChangeSigned(change) == Some(0.45)
  {
    DowPriceReads(price);
    SeedChangeReads("0", "45", 45, change);
  }

  lemma SAndPPriceReads(price: string)
    requires price == "4,450.67"
    ensures ReadPrice(price) == Some(4450.67)
  {
    ReadGroupedPrice("4", "450", "67");
    assert "4" + "," + "450" + "." + "67" == price;
    assert "4" + "450" == "4450";
    GroupedValue("4", "450", 4, 450);
    assert AllDigits("67") && DigitsValue("67") == 67;
    TwoDecimals("4450", "67", 4450, 67);
  }

  /** The S&P 500 row reads back as 4450.67 and +0.32. */
  lemma SAndPSeedReads(price: string, change: string)
    requires price == "4,450.67" && change == "+0.32%"
    ensures ReadPrice(price) == Some(4450.67)
    ensures ReadChange(change) == Some(0.32) && ReadChangeSigned(change) == Some(0.32)
  {
    SAndPPriceReads(price);
    SeedChangeReads("0", "32", 32, change);
  }

  lemma NasdaqPriceReads(price: string)
    requires price == "13,750.89"
    ensures ReadPrice(price) == Some(13750.89)
  {
    ReadGroupedPrice("13", "750", "89");
    assert "13" + "," + "750" + "." + "89" == price;
    assert "13" + "750" == "13750";
    GroupedValue("13", "750", 13, 750);
    assert AllDigits("89") && DigitsValue("89") == 89;
    TwoDecimals("13750", "89", 13750, 89);
  }

  /** The NASDAQ row reads back as 13750.89 and, having lost its minus
      sign, +0.12; the corrected read gives -0.12. */
  lemma NasdaqSeedReads(price: string, change: string)
    requires price == "13,750.89" && change == "-0.12%"
    ensures ReadPrice(price) == Some(13750.89)
    ensures ReadChange(change) == Some(0.12) && ReadChangeSigned(change) == Some(-0.12)
  {
    NasdaqPriceReads(price);
    SeedChangeReads("0", "12", 12, change);
  }

  lemma VixPriceReads(price: string)
    requires price == "15.34"
    ensures ReadPrice(price) == Some(15.34)
  {
    ReadPlainPrice("15", "34");
    assert "15" + "." + "34" == price;
    assert AllDigits("15") && DigitsValue("15") == 15;
    assert AllDigits("34") && DigitsValue("34") == 34;
    TwoDecimals("15", "34", 15, 34);
  }

  /** The VIX row reads back as 15.34 and, having lost its minus sign,
      +2.1; the corrected read gives -2.1. */
  lemma VixSeedReads(price: string, change: string)
    requires price == "15.34" && change == "-2.1%"
    ensures ReadPrice(price) == Some(15.34)
    ensures ReadChange(change) == Some(2.1) && ReadChangeSigned(change) == Some(-2.1)
  {
    VixPriceReads(price);
    ReadChangeNumeral("2", "1");
    assert "-" + "2" + "." + "1" + "%" == change;
    assert AllDigits("2") && DigitsValue("2") == 2;
    assert AllDigits("1") && DigitsValue("1") == 1;
    assert Pow10(|"1"|) == 10;
  }

  lemma SeedChangeReads(whole: string, frac: string, f: nat, text: string)
    requires whole == "0" && |frac| == 2 && AllDigits(frac) && DigitsValue(frac) == f
    requires text == "+" + whole + "." + frac + "%" || text == "-" + whole + "." + frac + "%"
    ensures ReadChange(text) == Some(f as real / 100.0)
    ensures text[0] == '+' ==> ReadChangeSigned(text) == Some(f as real / 100.0)
    ensures text[0] == '-' ==> ReadChangeSigned(text) == Some(-(f as real / 100.0))
  {
    ReadChangeNumeral(whole, frac);
    assert AllDigits(whole) && DigitsValue(whole) == 0;
    TwoDecimals(whole, frac, 0, f);
  }

  /** The element-id prefixes `updateMarketData` derives for the four rows;
      the second is "s&p-500", not "sp500". */
  lemma FallbackSlugs()
    ensures SlotId(FallbackIndices[0].name) == "dow"
    ensures SlotId(FallbackIndices[1].name) == "s&p-500"
    ensures SlotId(FallbackIndices[2].name) == "nasdaq"
    ensures SlotId(FallbackIndices[3].name) == "vix"
    ensures SlotId(FallbackIndices[1].name) != SimulatedIndices[1]
  {
    SlotIdOfDow();
    SlotIdOfSAndP();
    SlotIdOfNasdaq();
    SlotIdOfVix();
  }

  /** With the corrected slug the four rows land exactly on the ids the
      simulation visits. */
  lemma FixedSlugs()
    ensures forall i :: 0 <= i < 4 ==> SlotIdFixed(FallbackIndices[i].name) == SimulatedIndices[i]
  {
    SlotIdFixedOfDow();
    SlotIdFixedOfSAndP();
    SlotIdFixedOfNasdaq();
    SlotIdFixedOfVix();
    FourSlugsMatch(FallbackIndices, SlotIdFixed, SimulatedIndices, "dow", "sp500", "nasdaq", "vix");
  }

  lemma FourSlugsMatch(table: seq<Seed>, slug: string -> string, ids: seq<string>,
                       a: string, b: string, c: string, e: string)
    requires |table| == 4 && ids == [a, b, c, e]
    requires slug(table[0].name) == a && slug(table[1].name) == b
    requires slug(table[2].name) == c && slug(table[3].name) == e
    ensures forall i :: 0 <= i < 4 ==> slug(table[i].name) == ids[i]
  {
  }

  lemma FourDistinctSlugs(table: seq<Seed>, slug: string -> string, a: string, b: string, c: string, e: string)
    requires |table| == 4
    requires slug(table[0].name) == a && slug(table[1].name) == b
    requires slug(table[2].name) == c && slug(table[3].name) == e
    requires a != b && a != c && a != e && b != c && b != e && c != e
    ensures DistinctSlugs(table, slug)
  {
  }

  /** No two fallback rows share an element id, under either slug. */
  lemma FallbackSlugsDistinct()
    ensures DistinctSlugs(FallbackIndices, SlotId)
    ensures DistinctSlugs(FallbackIndices, SlotIdFixed)
  {
    FallbackSlugs();
    FourDistinctSlugs(FallbackIndices, SlotId, "dow", "s&p-500", "nasdaq", "vix");
    FixedSlugs();
    FourDistinctSlugs(FallbackIndices, SlotIdFixed, "dow", "sp500", "nasdaq", "vix");
  }

  /** An id no row slugs to keeps both of its elements through seeding. */
  lemma NoRowSlugsTo(d: Display, table: seq<Seed>, slug: string -> string, ix: string)
    requires forall i :: 0 <= i < |table| ==> slug(table[i].name) != ix
    ensures SameSlots(d, SeedAll(d, table, slug), ix)
  {
    forall e | e in table
      ensures PriceSlot(ix) != PriceSlot(slug(e.name)) && PriceSlot(ix) != ChangeSlot(slug(e.name))
      ensures ChangeSlot(ix) != PriceSlot(slug(e.name)) && ChangeSlot(ix) != ChangeSlot(slug(e.name))
    {
      var j :| 0 <= j < |table| && table[j] == e;
      SlotIdsDistinct(ix, slug(e.name));
      SlotIdsDistinct(slug(e.name), ix);
    }
    assert UntouchedBySeeds(PriceSlot(ix), table, slug);
    assert UntouchedBySeeds(ChangeSlot(ix), table, slug);
  }

  /** Seeding never writes the elements of "sp500". */
  lemma SimulatedSAndPNotSeeded(d: Display)
    ensures SameSlots(d, SeedAll(d, FallbackIndices, SlotId), "sp500")
  {
    FallbackSlugs();
    FourSlugsAvoid(FallbackIndices, SlotId, "dow", "s&p-500", "nasdaq", "vix", "sp500");
    NoRowSlugsTo(d, FallbackIndices, SlotId, "sp500");
  }

  lemma FourSlugsAvoid(table: seq<Seed>, slug: string -> string, a: string, b: string, c: string, e: string, ix: string)
    requires |table| == 4
    requires slug(table[0].name) == a && slug(table[1].name) == b
    requires slug(table[2].name) == c && slug(table[3].name) == e
    requires ix != a && ix != b && ix != c && ix != e
    ensures forall i :: 0 <= i < |table| ==> slug(table[i].name) != ix
  {
  }

  /** A seeded row whose text reads as numbers leaves its index readable,
      reading back as the values that text denotes; its price element keeps
      the class it had. */
  lemma SeededRow(d: Display, table: seq<Seed>, slug: string -> string,
                  read: string -> Option<real>, i: nat, price: real, change: real)
    requires DistinctSlugs(table, slug) && i < |table|
    ensures var ix, e := slug(table[i].name), SeedAll(d, table, slug);
            && (ReadPrice(table[i].price).Some? && read(table[i].change).Some? ==> Readable(e, ix, read))
            && (HasSlots(d, ix) && ReadPrice(table[i].price) == Some(price) && read(table[i].change) == Some(change) ==>
                  && HasSlots(e, ix)
                  && Current(e, ix, read) == Reading(price, change)
                  && e[PriceSlot(ix)].className == d[PriceSlot(ix)].className)
  {
    if HasSlots(d, slug(table[i].name)) {
      SeedAllWrites(d, table, slug, i);
    }
  }

  /** Each fallback row, read back with either change reader. */
  lemma FallbackRowReads(i: nat)
    requires i < |FallbackIndices|
    ensures ReadPrice(FallbackIndices[i].price).Some?
    ensures ReadChange(FallbackIndices[i].change).Some?
    ensures ReadChangeSigned(FallbackIndices[i].change) == Some(FallbackIndices[i].changeRaw)
  {
    var e := FallbackIndices[i];
    if i == 0 {
      DowSeedReads(e.price, e.change);
    } else if i == 1 {
      SAndPSeedReads(e.price, e.change);
    } else if i == 2 {
      NasdaqSeedReads(e.price, e.change);
    } else {
      VixSeedReads(e.price, e.change);
    }
  }

  lemma SeededReadableAt(d: Display, slug: string -> string, read: string -> Option<real>, i: nat)
    requires DistinctSlugs(FallbackIndices, slug) && i < |FallbackIndices|
    requires read == ReadChange || read == ReadChangeSigned
    ensures Readable(SeedAll(d, FallbackIndices, slug), slug(FallbackIndices[i].name), read)
  {
    FallbackRowReads(i);
    var e := FallbackIndices[i];
    SeededRow(d, FallbackIndices, slug, read, i, ReadPrice(e.price).value, read(e.change).value);
  }

  lemma EachSimulatedReadable(e: Display, read: string -> Option<real>)
    requires Readable(e, "dow", read) && Readable(e, "sp500", read)
    requires Readable(e, "nasdaq", read) && Readable(e, "vix", read)
    ensures forall ix :: ix in SimulatedIndices ==> Readable(e, ix, read)
  {
  }

  /** After seeding as written, every index the simulation visits reads as
      numbers: "dow", "nasdaq" and "vix" hold the fallback text, and "sp500"
      holds whatever it held before. */
  lemma SeededReadable(d: Display)
    requires Readable(d, "sp500", ReadChange)
    ensures forall ix :: ix in SimulatedIndices ==>
              Readable(SeedAll(d, FallbackIndices, SlotId), ix, ReadChange)
  {
    var e := SeedAll(d, FallbackIndices, SlotId);
    FallbackSlugs();
    FallbackSlugsDistinct();
    SeededReadableAt(d, SlotId, ReadChange, 0);
    SeededReadableAt(d, SlotId, ReadChange, 2);
    SeededReadableAt(d, SlotId, ReadChange, 3);
    SimulatedSAndPNotSeeded(d);
    ReadableTransfers(d, e, "sp500", ReadChange);
    EachSimulatedReadable(e, ReadChange);
  }

  /** With the corrected slug and reader, all four rows are seeded and read. */
  lemma SeededFixedReadable(d: Display)
    ensures forall ix :: ix in SimulatedIndices ==>
              Readable(SeedAll(d, FallbackIndices, SlotIdFixed), ix, ReadChangeSigned)
  {
    FixedSlugs();
    FallbackSlugsDistinct();
    SeededReadableAt(d, SlotIdFixed, ReadChangeSigned, 0);
    SeededReadableAt(d, SlotIdFixed, ReadChangeSigned, 1);
    SeededReadableAt(d, SlotIdFixed, ReadChangeSigned, 2);
    SeededReadableAt(d, SlotIdFixed, ReadChangeSigned, 3);
    EachSimulatedReadable(SeedAll(d, FallbackIndices, SlotIdFixed), ReadChangeSigned);
  }

  /** The fallback path of `updateMarketData`, with the element-id rule
      `slug` and the change reader `read` as parameters: seed the four
      rows, then run one simulation pass with the draws `rs`. Only the
      elements of the seeded and the simulated indices can change. */
  function SeedThenSimulate(d: Display, rs: seq<real>, format: real -> string,
                            slug: string -> string, read: string -> Option<real>): (d': Display)
    requires |rs| == |SimulatedIndices| && InUnitInterval(rs)
    requires forall ix :: ix in SimulatedIndices ==>
               Readable(SeedAll(d, FallbackIndices, slug), ix, read)
    ensures d'.Keys == d.Keys
    ensures forall k :: (k in d && UntouchedBySeeds(k, FallbackIndices, slug) &&
                         UntouchedBySteps(k, SimulatedIndices)) ==> d'[k] == d[k]
  {
    SimulatedIndicesDistinct();
    SimulateAll(SeedAll(d, FallbackIndices, slug), SimulatedIndices, rs, format, read)
  }

  /** `updateMarketData` as written: slugs from `SlotId`, change text read
      with the minus sign stripped. The "sp500" elements are never seeded,
      so they must already read as numbers. */
  function UpdateMarketData(d: Display, rs: seq<real>, format: real -> string): (d': Display)
    requires |rs| == |SimulatedIndices| && InUnitInterval(rs)
    requires Readable(d, "sp500", ReadChange)
    ensures d'.Keys == d.Keys
    ensures forall k :: (k in d && UntouchedBySeeds(k, FallbackIndices, SlotId) &&
                         UntouchedBySteps(k, SimulatedIndices)) ==> d'[k] == d[k]
  {
    SeededReadable(d);
    SeedThenSimulate(d, rs, format, SlotId, ReadChange)
  }

  /** `updateMarketData` corrected: every row lands on a simulated id and
      change text keeps its sign. No precondition on the page is needed. */
  function UpdateMarketDataFixed(d: Display, rs: seq<real>, format: real -> string): (d': Display)
    requires |rs| == |SimulatedIndices| && InUnitInterval(rs)
    ensures d'.Keys == d.Keys
    ensures forall k :: (k in d && UntouchedBySteps(k, SimulatedIndices)) ==> d'[k] == d[k]
  {
    SeededFixedReadable(d);
    FixedSlugs();
    forall k | UntouchedBySteps(k, SimulatedIndices)
      ensures UntouchedBySeeds(k, FallbackIndices, SlotIdFixed)
    {
      forall e | e in FallbackIndices
        ensures k != PriceSlot(SlotIdFixed(e.name)) && k != ChangeSlot(SlotIdFixed(e.name))
      {
        var j :| 0 <= j < |FallbackIndices| && FallbackIndices[j] == e;
        assert SlotIdFixed(e.name) in SimulatedIndices;
      }
    }
    SeedThenSimulate(d, rs, format, SlotIdFixed, ReadChangeSigned)
  }

  /** After the pass, a simulated index that has both elements shows one
      step from the values seeding left there. */
  lemma SteppedIndex(d: Display, rs: seq<real>, format: real -> string,
                     slug: string -> string, read: string -> Option<real>, i: nat)
    requires |rs| == |SimulatedIndices| && InUnitInterval(rs)
    requires forall ix :: ix in SimulatedIndices ==>
               Readable(SeedAll(d, FallbackIndices, slug), ix, read)
    requires i < |SimulatedIndices| && HasSlots(d, SimulatedIndices[i])
    ensures var ix, e := SimulatedIndices[i], SeedAll(d, FallbackIndices, slug);
            && HasSlots(e, ix)
            && var next, d' := Step(Current(e, ix, read), rs[i]), SeedThenSimulate(d, rs, format, slug, read);
               && d'[PriceSlot(ix)] == Slot(format(next.price), e[PriceSlot(ix)].className)
               && d'[ChangeSlot(ix)].text == RenderChange(next.change)
               && (d'[ChangeSlot(ix)].className == "stat-change positive" <==> next.change >= 0.0)
               && (d'[ChangeSlot(ix)].className == "stat-change negative" <==> next.change < 0.0)
  {
    SimulatedIndicesDistinct();
    SimulateAllAt(SeedAll(d, FallbackIndices, slug), SimulatedIndices, rs, format, read, i);
  }

  lemma DowSeeded(d: Display)
    requires HasSlots(d, "dow")
    ensures var e := SeedAll(d, FallbackIndices, SlotId);
            && HasSlots(e, "dow") && Readable(e, "dow", ReadChange)
            && Current(e, "dow", ReadChange) == Reading(34500.12, 0.45)
            && e[PriceSlot("dow")].className == d[PriceSlot("dow")].className
  {
    FallbackSlugs();
    FallbackSlugsDistinct();
    DowSeedReads(FallbackIndices[0].price, FallbackIndices[0].change);
    SeededRow(d, FallbackIndices, SlotId, ReadChange, 0, 34500.12, 0.45);
  }

  lemma NasdaqSeeded(d: Display)
    requires HasSlots(d, "nasdaq")
    ensures var e := SeedAll(d, FallbackIndices, SlotId);
            && HasSlots(e, "nasdaq") && Readable(e, "nasdaq", ReadChange)
            && Current(e, "nasdaq", ReadChange) == Reading(13750.89, 0.12)
            && e[PriceSlot("nasdaq")].className == d[PriceSlot("nasdaq")].className
  {
    FallbackSlugs();
    FallbackSlugsDistinct();
    NasdaqSeedReads(FallbackIndices[2].price, FallbackIndices[2].change);
    SeededRow(d, FallbackIndices, SlotId, ReadChange, 2, 13750.89, 0.12);
  }

  lemma VixSeeded(d: Display)
    requires HasSlots(d, "vix")
    ensures var e := SeedAll(d, FallbackIndices, SlotId);
            && HasSlots(e, "vix") && Readable(e, "vix", ReadChange)
            && Current(e, "vix", ReadChange) == Reading(15.34, 2.1)
            && e[PriceSlot("vix")].className == d[PriceSlot("vix")].className
  {
    FallbackSlugs();
    FallbackSlugsDistinct();
    VixSeedReads(FallbackIndices[3].price, FallbackIndices[3].change);
    SeededRow(d, FallbackIndices, SlotId, ReadChange, 3, 15.34, 2.1);
  }

  lemma DowSeededFixed(d: Display)
    requires HasSlots(d, "dow")
    ensures var e := SeedAll(d, FallbackIndices, SlotIdFixed);
            && HasSlots(e, "dow") && Readable(e, "dow", ReadChangeSigned)
            && Current(e, "dow", ReadChangeSigned) == Reading(34500.12, 0.45)
            && e[PriceSlot("dow")].className == d[PriceSlot("dow")].className
  {
    FixedSlugs();
    FallbackSlugsDistinct();
    DowSeedReads(FallbackIndices[0].price, FallbackIndices[0].change);
    SeededRow(d, FallbackIndices, SlotIdFixed, ReadChangeSigned, 0, 34500.12, 0.45);
  }

  lemma SAndPSeededFixed(d: Display)
    requires HasSlots(d, "sp500")
    ensures var e := SeedAll(d, FallbackIndices, SlotIdFixed);
            && HasSlots(e, "sp500") && Readable(e, "sp500", ReadChangeSigned)
            && Current(e, "sp500", ReadChangeSigned) == Reading(4450.67, 0.32)
            && e[PriceSlot("sp500")].className == d[PriceSlot("sp500")].className
  {
    FixedSlugs();
    FallbackSlugsDistinct();
    SAndPSeedReads(FallbackIndices[1].price, FallbackIndices[1].change);
    SeededRow(d, FallbackIndices, SlotIdFixed, ReadChangeSigned, 1, 4450.67, 0.32);
  }

  lemma NasdaqSeededFixed(d: Display)
    requires HasSlots(d, "nasdaq")
    ensures var e := SeedAll(d, FallbackIndices, SlotIdFixed);
            && HasSlots(e, "nasdaq") && Readable(e, "nasdaq", ReadChangeSigned)
            && Current(e, "nasdaq", ReadChangeSigned) == Reading(13750.89, -0.12)
            && e[PriceSlot("nasdaq")].className == d[PriceSlot("nasdaq")].className
  {
    FixedSlugs();
    FallbackSlugsDistinct();
    NasdaqSeedReads(FallbackIndices[2].price, FallbackIndices[2].change);
    SeededRow(d, FallbackIndices, SlotIdFixed, ReadChangeSigned, 2, 13750.89, -0.12);
  }

  lemma VixSeededFixed(d: Display)
    requires HasSlots(d, "vix")
    ensures var e := SeedAll(d, FallbackIndices, SlotIdFixed);
            && HasSlots(e, "vix") && Readable(e, "vix", ReadChangeSigned)
            && Current(e, "vix", ReadChangeSigned) == Reading(15.34, -2.1)
            && e[PriceSlot("vix")].className == d[PriceSlot("vix")].className
  {
    FixedSlugs();
    FallbackSlugsDistinct();
    VixSeedReads(FallbackIndices[3].price, FallbackIndices[3].change);
    SeededRow(d, FallbackIndices, SlotIdFixed, ReadChangeSigned, 3, 15.34, -2.1);
  }

  lemma SAndPSlotsSeeded(d: Display)
    requires HasSlots(d, "s&p-500")
    ensures var e := SeedAll(d, FallbackIndices, SlotId);
            && e[PriceSlot("s&p-500")] == Slot("4,450.67", d[PriceSlot("s&p-500")].className)
            && e[ChangeSlot("s&p-500")] == Slot("+0.32%", "stat-change positive")
  {
    FallbackSlugs();
    FallbackSlugsDistinct();
    SeedAllWrites(d, FallbackIndices, SlotId, 1);
  }

  lemma SAndPSlotsNotStepped(ixs: seq<string>)
    requires ixs == SimulatedIndices
    ensures UntouchedBySteps(PriceSlot("s&p-500"), ixs)
    ensures UntouchedBySteps(ChangeSlot("s&p-500"), ixs)
  {
    forall ix | ix in ixs
      ensures PriceSlot("s&p-500") != PriceSlot(ix) && PriceSlot("s&p-500") != ChangeSlot(ix)
      ensures ChangeSlot("s&p-500") != PriceSlot(ix) && ChangeSlot("s&p-500") != ChangeSlot(ix)
    {
      SlotIdsDistinct("s&p-500", ix);
      SlotIdsDistinct(ix, "s&p-500");
    }
  }

  /** As written, the "s&p-500" elements receive the fallback text and class
      and are then left alone: no simulated index owns them. */
  lemma SAndPSeededNeverStepped(d: Display, rs: seq<real>, format: real -> string)
    requires |rs| == |SimulatedIndices| && InUnitInterval(rs)
    requires Readable(d, "sp500", ReadChange)
    requires HasSlots(d, "s&p-500")
    ensures var d' := UpdateMarketData(d, rs, format);
            && d'[PriceSlot("s&p-500")] == Slot("4,450.67", d[PriceSlot("s&p-500")].className)
            && d'[ChangeSlot("s&p-500")] == Slot("+0.32%", "stat-change positive")
  {
    SAndPSlotsSeeded(d);
    SAndPSlotsNotStepped(SimulatedIndices);
    SeededReadable(d);
  }

  /** As written, the "sp500" elements end up exactly as one step applied to
      the page before seeding would leave them: the fallback row never
      reaches them. */
  lemma SimulatedSAndPIgnoresFallback(d: Display, rs: seq<real>, format: real -> string)
    requires |rs| == |SimulatedIndices| && InUnitInterval(rs)
    requires Readable(d, "sp500", ReadChange)
    ensures SameSlots(UpdateMarketData(d, rs, format),
                      SimulateOne(d, "sp500", rs[1], format, ReadChange), "sp500")
  {
    var seeded := SeedAll(d, FallbackIndices, SlotId);
    SeededReadable(d);
    SimulatedIndicesDistinct();
    SimulateAllIndependent(seeded, SimulatedIndices, rs, format, ReadChange, 1);
    SimulatedSAndPNotSeeded(d);
    SimulateOneLocal(seeded, d, "sp500", rs[1], format, ReadChange);
  }

  /** DOW end to end: seeded at 34,500.12 and +0.45%, then one step moves
      the change to 0.45 plus the draw's movement and re-derives the price
      from 34500.12. */
  lemma DowAfterUpdate(d: Display, rs: seq<real>, format: real -> string)
    requires |rs| == |SimulatedIndices| && InUnitInterval(rs)
    requires Readable(d, "sp500", ReadChange)
    requires HasSlots(d, "dow")
    ensures var d', m := UpdateMarketData(d, rs, format), 0.45 + Movement(rs[0]);
            && 0.40 <= m < 0.50
            && d'[PriceSlot("dow")] == Slot(format(RecomputePrice(34500.12, m)), d[PriceSlot("dow")].className)
            && d'[ChangeSlot("dow")] == Slot(RenderChange(m), "stat-change positive")
  {
    SeededReadable(d);
    SteppedIndex(d, rs, format, SlotId, ReadChange, 0);
    DowSeeded(d);
  }

  /** As written, NASDAQ is seeded at -0.12% but stepped from +0.12, so the
      change shown after the pass lies in [0.07, 0.17) and is always classed
      positive. */
  lemma NasdaqAlwaysClassedPositive(d: Display, rs: seq<real>, format: real -> string)
    requires |rs| == |SimulatedIndices| && InUnitInterval(rs)
    requires Readable(d, "sp500", ReadChange)
    requires HasSlots(d, "nasdaq")
    ensures var d', m := UpdateMarketData(d, rs, format), 0.12 + Movement(rs[2]);
            && 0.07 <= m < 0.17
            && d'[PriceSlot("nasdaq")] == Slot(format(RecomputePrice(13750.89, m)), d[PriceSlot("nasdaq")].className)
            && d'[ChangeSlot("nasdaq")] == Slot(RenderChange(m), "stat-change positive")
  {
    SeededReadable(d);
    SteppedIndex(d, rs, format, SlotId, ReadChange, 2);
    NasdaqSeeded(d);
  }

  /** As written, VIX is seeded at -2.1% but stepped from +2.1: always
      classed positive after the pass. */
  lemma VixAlwaysClassedPositive(d: Display, rs: seq<real>, format: real -> string)
    requires |rs| == |SimulatedIndices| && InUnitInterval(rs)
    requires Readable(d, "sp500", ReadChange)
    requires HasSlots(d, "vix")
    ensures var d', m := UpdateMarketData(d, rs, format), 2.1 + Movement(rs[3]);
            && 2.05 <= m < 2.15
            && d'[PriceSlot("vix")] == Slot(format(RecomputePrice(15.34, m)), d[PriceSlot("vix")].className)
            && d'[ChangeSlot("vix")] == Slot(RenderChange(m), "stat-change positive")
  {
    SeededReadable(d);
    SteppedIndex(d, rs, format, SlotId, ReadChange, 3);
    VixSeeded(d);
  }

  /** Corrected, the "sp500" elements carry the S&P 500 row and are
      stepped from it. */
  lemma SAndPSteppedFixed(d: Display, rs: seq<real>, format: real -> string)
    requires |rs| == |SimulatedIndices| && InUnitInterval(rs)
    requires HasSlots(d, "sp500")
    ensures var d', m := UpdateMarketDataFixed(d, rs, format), 0.32 + Movement(rs[1]);
            && 0.27 <= m < 0.37
            && d'[PriceSlot("sp500")] == Slot(format(RecomputePrice(4450.67, m)), d[PriceSlot("sp500")].className)
            && d'[ChangeSlot("sp500")] == Slot(RenderChange(m), "stat-change positive")
  {
    SeededFixedReadable(d);
    SteppedIndex(d, rs, format, SlotIdFixed, ReadChangeSigned, 1);
    SAndPSeededFixed(d);
  }

  /** Corrected, NASDAQ keeps its sign: stepped from -0.12 and classed
      negative. */
  lemma NasdaqKeepsSignFixed(d: Display, rs: seq<real>, format: real -> string)
    requires |rs| == |SimulatedIndices| && InUnitInterval(rs)
    requires HasSlots(d, "nasdaq")
    ensures var d', m := UpdateMarketDataFixed(d, rs, format), -0.12 + Movement(rs[2]);
            && -0.17 <= m < -0.07
            && d'[PriceSlot("nasdaq")] == Slot(format(RecomputePrice(13750.89, m)), d[PriceSlot("nasdaq")].className)
            && d'[ChangeSlot("nasdaq")] == Slot(RenderChange(m), "stat-change negative")
  {
    SeededFixedReadable(d);
    SteppedIndex(d, rs, format, SlotIdFixed, ReadChangeSigned, 2);
    NasdaqSeededFixed(d);
  }

  /** Corrected, VIX keeps its sign: stepped from -2.1 and classed
      negative. */
  lemma VixKeepsSignFixed(d: Display, rs: seq<real>, format: real -> string)
    requires |rs| == |SimulatedIndices| && InUnitInterval(rs)
    requires HasSlots(d, "vix")
    ensures var d', m := UpdateMarketDataFixed(d, rs, format), -2.1 + Movement(rs[3]);
            && -2.15 <= m < -2.05
            && d'[PriceSlot("vix")] == Slot(format(RecomputePrice(15.34, m)), d[PriceSlot("vix")].className)
            && d'[ChangeSlot("vix")] == Slot(RenderChange(m), "stat-change negative")
  {
    SeededFixedReadable(d);
    SteppedIndex(d, rs, format, SlotIdFixed, ReadChangeSigned, 3);
    VixSeededFixed(d);
  }

  /** A draw of 0.8 moves DOW's +0.45% to +0.48%, and the price becomes
      34500.12 * 1.0048 = 34665.720576 before formatting. */
  lemma DowDrawExample(r: real)
    requires r == 0.8
    ensures 0.45 + Movement(r) == 0.48
    ensures RecomputePrice(34500.12, 0.45 + Movement(r)) == 34665.720576
    ensures RenderChange(0.45 + Movement(r)) == "+0.48%"
  {
    var m := 0.45 + Movement(r);
    assert m == 0.48;
    assert Hundredths(m) == 48;
    assert NatToText(0) == "0";
    assert FixedDigits(48) == "0.48";
  }
}

=== FILE: market_hours.dfy ===
/** The two market-hours classifiers of the dashboard.

  `isMarketOpen` in config.js and the inline check in `updateMarketStatus`
  in script.js both decide, from a weekday and a wall-clock time, whether the
  US equity market is open. They were written independently and do not agree.
  Both are modelled here on the already-extracted (day, hour, minute) triple;
  the time-zone conversion and the `Date` accessors are outside the model.
 */
module MarketHours {

  /** `Date.getDay()`: 0 is Sunday, 6 is Saturday. */
  type Day = d: int | 0 <= d <= 6
  /** `Date.getHours()`. */
  type Hour = h: int | 0 <= h <= 23
  /** `Date.getMinutes()`. */
  type Minute = m: int | 0 <= m <= 59

  datatype WallClock = WallClock(day: Day, hour: Hour, minute: Minute)

  /** Minutes elapsed since midnight for a clock reading `h:m`. */
  function TimeOfDay(h: int, m: int): int {
    60 * h + m
  }

  function MinuteOfDay(t: WallClock): int {
    TimeOfDay(t.hour, t.minute)
  }

  predicate IsWeekday(day: Day) {
    1 <= day <= 5
  }

  /** The documented session: 09:30 to 16:00 Eastern. */
  const SessionOpen: int := TimeOfDay(9, 30)
  const SessionClose: int := TimeOfDay(16, 0)
  /** The start of the window that `updateMarketStatus` actually uses. */
  const EarlyOpen: int := TimeOfDay(8, 30)

  /** `isMarketOpen` after the day, hour and minute have been read: open on
      weekdays from 09:30 through 16:00, both ends included. */
  function ConfigIsMarketOpen(t: WallClock): (open: bool)
    ensures open <==> IsWeekday(t.day) && SessionOpen <= MinuteOfDay(t) <= SessionClose
  {
    if t.day >= 1 && t.day <= 5 then
      if t.hour > 9 && t.hour < 16 then true
      else if t.hour == 9 && t.minute >= 30 then true
      else if t.hour == 16 && t.minute == 0 then true
      else false
    else
      false
  }

  /** The weekday-and-hours test inside `updateMarketStatus`: open on
      weekdays from 08:30 up to, but excluding, 16:00. */
  function StatusWindowOpen(t: WallClock): (open: bool)
    ensures open <==> IsWeekday(t.day) && EarlyOpen <= MinuteOfDay(t) < SessionClose
  {
    var isWeekday := t.day >= 1 && t.day <= 5;
    var isMarketHours := (t.hour >= 9 && t.hour < 16) || (t.hour == 8 && t.minute >= 30);
    isWeekday && isMarketHours
  }

  /** The text and the CSS class written to the `market-status` element. */
  datatype MarketStatus = MarketStatus(text: string, className: string)

  const OpenStatus: MarketStatus := MarketStatus("MARKETS OPEN", "market-open")
  const ClosedStatus: MarketStatus := MarketStatus("MARKETS CLOSED", "market-closed")

  /** `updateMarketStatus`: the label and class always travel together, and
      the open pair is chosen exactly inside the 08:30-16:00 weekday window. */
  function UpdateMarketStatus(t: WallClock): (s: MarketStatus)
    ensures s == OpenStatus || s == ClosedStatus
    ensures s.text == "MARKETS OPEN" <==> s.className == "market-open"
    ensures s.text == "MARKETS OPEN" <==>
              IsWeekday(t.day) && EarlyOpen <= MinuteOfDay(t) < SessionClose
  {
    if StatusWindowOpen(t) then OpenStatus else ClosedStatus
  }

  /** Saturdays and Sundays are closed for `isMarketOpen` at every time. */
  lemma ConfigClosedOnWeekends(t: WallClock)
    requires t.day == 0 || t.day == 6
    ensures !ConfigIsMarketOpen(t)
    ensures UpdateMarketStatus(t) == ClosedStatus
  {
  }

  /** The boundary minutes of `isMarketOpen` on a weekday. */
  lemma ConfigBoundaries(day: Day)
    requires IsWeekday(day)
    ensures !ConfigIsMarketOpen(WallClock(day, 9, 29))
    ensures ConfigIsMarketOpen(WallClock(day, 9, 30))
    ensures ConfigIsMarketOpen(WallClock(day, 16, 0))
    ensures !ConfigIsMarketOpen(WallClock(day, 16, 1))
  {
  }

  /** The boundary minutes of `updateMarketStatus` on a weekday. */
  lemma StatusBoundaries(day: Day)
    requires IsWeekday(day)
    ensures UpdateMarketStatus(WallClock(day, 8, 29)) == ClosedStatus
    ensures UpdateMarketStatus(WallClock(day, 8, 30)) == OpenStatus
    ensures UpdateMarketStatus(WallClock(day, 15, 59)) == OpenStatus
    ensures UpdateMarketStatus(WallClock(day, 16, 0)) == ClosedStatus
  {
  }

  /** The two classifiers differ on exactly two stretches of every weekday:
      08:30-09:29, which only the status banner calls open, and the single
      minute 16:00, which only `isMarketOpen` calls open. */
  lemma ClassifiersDisagreement(t: WallClock)
    ensures StatusWindowOpen(t) && !ConfigIsMarketOpen(t) <==>
              IsWeekday(t.day) && EarlyOpen <= MinuteOfDay(t) < SessionOpen
    ensures ConfigIsMarketOpen(t) && !StatusWindowOpen(t) <==>
              IsWeekday(t.day) && MinuteOfDay(t) == SessionClose
    ensures StatusWindowOpen(t) == ConfigIsMarketOpen(t) <==>
              !IsWeekday(t.day) || MinuteOfDay(t) < EarlyOpen ||
              (SessionOpen <= MinuteOfDay(t) < SessionClose) || MinuteOfDay(t) > SessionClose
  {
  }

  /** Within an hour the disagreement is all-or-nothing except at 16:00 and at
      the 8 o'clock hour, where it starts at the half hour. */
  lemma DisagreementByHour(t: WallClock)
    requires IsWeekday(t.day)
    ensures StatusWindowOpen(t) != ConfigIsMarketOpen(t) <==>
              (t.hour == 8 && t.minute >= 30) || (t.hour == 9 && t.minute < 30) ||
              (t.hour == 16 && t.minute == 0)
  {
  }

  /** How many of the minutes 00:00 .. m-1 of a weekday the two classifiers
      disagree on, in closed form. */
  function DisagreementsBefore(m: int): nat {
    (if m <= EarlyOpen then 0
     else if m <= SessionOpen then m - EarlyOpen
     else SessionOpen - EarlyOpen)
    + (if m > SessionClose then 1 else 0)
  }

  /** Walks every minute of one day and counts the minutes on which
      `updateMarketStatus` and `isMarketOpen` disagree: 61 on a weekday
      (60 in the 8 o'clock half-hour stretch plus 16:00), none at weekends. */
  method CountDisagreeingMinutes(day: Day) returns (count: nat)
    ensures count == if IsWeekday(day) then 61 else 0
  {
    count := 0;
    var m := 0;
    while m < 24 * 60
      invariant 0 <= m <= 24 * 60
      invariant count == if IsWeekday(day) then DisagreementsBefore(m) else 0
    {
      var t := WallClock(day, m / 60, m % 60);
      assert MinuteOfDay(t) == m;
      if StatusWindowOpen(t) != ConfigIsMarketOpen(t) {
        count := count + 1;
      }
      m := m + 1;
    }
  }
}

=== FILE: slug.dfy ===
/** The element-id slug `updateMarketData` derives from an index name:
    `name.toLowerCase().replace('& ', '').replace(' ', '-')`. With a string
    pattern, `String.prototype.replace` rewrites only the FIRST occurrence.
 */
module Slug {
  import opened Wrappers
  import Cleaning

  predicate IsUpper(c: char) {
    'A' <= c <= 'Z'
  }

  /** `toLowerCase` on one character, for the ASCII letters. */
  function LowerChar(c: char): (d: char)
    ensures IsUpper(c) ==> 'a' <= d <= 'z' && d as int == c as int + 32
    ensures !IsUpper(c) ==> d == c
  {
    if IsUpper(c) then (c as int + 32) as char else c
  }

  function ToLower(s: string): (r: string)
    ensures |r| == |s|
    ensures forall i :: 0 <= i < |s| ==> r[i] == LowerChar(s[i])
    ensures forall i :: 0 <= i < |r| ==> !IsUpper(r[i])
  {
    seq(|s|, i requires 0 <= i < |s| => LowerChar(s[i]))
  }

  /** `pat` occurs in `s` starting at index `k`. */
  predicate OccursAt(s: string, pat: string, k: int) {
    0 <= k && k + |pat| <= |s| && s[k..k + |pat|] == pat
  }

  /** `pat` occurs somewhere in `s`. */
  predicate Occurs(s: string, pat: string) {
    exists k :: 0 <= k <= |s| && OccursAt(s, pat, k)
  }

  /** `s.indexOf(pat)`: the first index at which `pat` occurs, if any. */
  function IndexOf(s: string, pat: string): (r: Option<nat>)
    ensures r.Some? ==> OccursAt(s, pat, r.value)
    ensures r.Some? ==> forall j :: 0 <= j < r.value ==> !OccursAt(s, pat, j)
    ensures r.None? ==> forall j :: 0 <= j <= |s| ==> !OccursAt(s, pat, j)
  {
    if OccursAt(s, pat, 0) then
      Some(0)
    else if |s| == 0 then
      None
    else
      ShiftOccurrence(s, pat);
      match IndexOf(s[1..], pat)
      case Some(k) => Some(k + 1)
      case None => None
  }

  /** An occurrence in the tail is an occurrence one further on. */
  lemma ShiftOccurrence(s: string, pat: string)
    requires |s| > 0
    ensures forall j :: 1 <= j ==> (OccursAt(s, pat, j) <==> OccursAt(s[1..], pat, j - 1))
  {
    forall j | 1 <= j
      ensures OccursAt(s, pat, j) <==> OccursAt(s[1..], pat, j - 1)
    {
      if j + |pat| <= |s| {
        assert s[1..][j - 1..j - 1 + |pat|] == s[j..j + |pat|];
      }
    }
  }

  /** `s.replace(pat, rep)` with a string pattern: the first occurrence of
      `pat` is replaced, and `s` is returned unchanged when there is none. */
  function ReplaceFirst(s: string, pat: string, rep: string): (r: string)
    ensures (forall j :: 0 <= j <= |s| ==> !OccursAt(s, pat, j)) ==> r == s
    ensures forall k :: OccursAt(s, pat, k) && (forall j :: 0 <= j < k ==> !OccursAt(s, pat, j)) ==>
              r == s[..k] + rep + s[k + |pat|..]
    ensures IndexOf(s, pat).Some? ==> |r| == |s| - |pat| + |rep|
    ensures IndexOf(s, pat).Some? ==> multiset(r) + multiset(pat) == multiset(s) + multiset(rep)
  {
    match IndexOf(s, pat)
    case None => s
    case Some(k) =>
      assert s == s[..k] + pat + s[k + |pat|..];
      s[..k] + rep + s[k + |pat|..]
  }

  /** Neither slug pattern can occur in text without a space. */
  lemma NoSpaceNoPattern(s: string)
    ensures (forall i :: 0 <= i < |s| ==> s[i] != ' ') ==>
              forall j :: 0 <= j <= |s| ==> !OccursAt(s, "& ", j) && !OccursAt(s, " ", j)
  {
    forall j | 0 <= j <= |s| && forall i :: 0 <= i < |s| ==> s[i] != ' ' 
      ensures !OccursAt(s, "& ", j) && !OccursAt(s, " ", j)
    {
      if j + 1 < |s| {
        assert s[j..j + 2][1] == s[j + 1] != ' ';
      }
      if j < |s| {
        assert s[j..j + 1][0] == s[j] != ' ';
      }
    }
  }

  /** Every character of a replacement result comes from the input or the
      replacement text. */
  lemma ReplaceFirstChars(s: string, pat: string, rep: string, c: char)
    requires c in ReplaceFirst(s, pat, rep)
    ensures c in s || c in rep
  {
    var r := ReplaceFirst(s, pat, rep);
    if IndexOf(s, pat).Some? {
      assert c in multiset(r) + multiset(pat);
    }
  }

  /** The slug of an index name, as `updateMarketData` computes it: lower
      case throughout; two characters shorter exactly when the lower-cased
      name contains "& "; and, for a name without a space, just the name in
      lower case. */
  function SlotId(name: string): (id: string)
    ensures forall i :: 0 <= i < |id| ==> !IsUpper(id[i])
    ensures Occurs(ToLower(name), "& ") ==> |id| == |name| - 2
    ensures !Occurs(ToLower(name), "& ") ==> |id| == |name|
    ensures (forall i :: 0 <= i < |name| ==> name[i] != ' ') ==> id == ToLower(name)
  {
    var lower := ToLower(name);
    var dropped := ReplaceFirst(lower, "& ", "");
    NoSpaceNoPattern(lower);
    ReplacesKeepLowerCase(lower, dropped);
    ReplaceFirst(dropped, " ", "-")
  }

  lemma ReplacesKeepLowerCase(lower: string, dropped: string)
    requires forall i :: 0 <= i < |lower| ==> !IsUpper(lower[i])
    requires dropped == ReplaceFirst(lower, "& ", "")
    ensures forall i :: 0 <= i < |ReplaceFirst(dropped, " ", "-")| ==> !IsUpper(ReplaceFirst(dropped, " ", "-")[i])
  {
    var id := ReplaceFirst(dropped, " ", "-");
    forall i | 0 <= i < |id|
      ensures !IsUpper(id[i])
    {
      ReplaceFirstChars(dropped, " ", "-", id[i]);
      if id[i] in dropped {
        ReplaceFirstChars(lower, "& ", "", id[i]);
      }
    }
  }

  lemma SpaceFreeSlot(name: string, lower: string)
    requires forall i :: 0 <= i < |name| ==> name[i] != ' '
    requires ToLower(name) == lower
    ensures SlotId(name) == lower
  {
  }

  /** With no "& " in the lower-cased name, an '&' survives the slug, so it
      differs from the corrected slug, which never holds one. */
  lemma SlotIdKeepsLoneAmpersand(name: string)
    requires !Occurs(ToLower(name), "& ")
    requires '&' in name
    ensures '&' in SlotId(name)
    ensures SlotId(name) != SlotIdFixed(name)
  {
    var lower := ToLower(name);
    var k :| 0 <= k < |name| && name[k] == '&';
    assert lower[k] == '&';
    var dropped := ReplaceFirst(lower, "& ", "");
    assert dropped == lower;
    var id := ReplaceFirst(dropped, " ", "-");
    assert '&' in multiset(dropped);
    if IndexOf(dropped, " ").Some? {
      assert '&' in multiset(id) + multiset(" ");
    }
  }

  /** With no "& " in the lower-cased name, the slug is that name with its
      first space turned into '-'. */
  lemma SlotIdDashesFirstSpace(name: string, k: nat)
    requires !Occurs(ToLower(name), "& ")
    requires IndexOf(ToLower(name), " ") == Some(k)
    ensures SlotId(name) == ToLower(name)[..k] + "-" + ToLower(name)[k + 1..]
  {
    assert ReplaceFirst(ToLower(name), "& ", "") == ToLower(name);
  }

  /** When "& " occurs, its first occurrence is removed, and then the first
      space of what remains becomes '-'. */
  lemma SlotIdDropsThenDashes(name: string, j: nat, k: nat)
    requires IndexOf(ToLower(name), "& ") == Some(j)
    requires IndexOf(ToLower(name)[..j] + ToLower(name)[j + 2..], " ") == Some(k)
    ensures var dropped := ToLower(name)[..j] + ToLower(name)[j + 2..];
            SlotId(name) == dropped[..k] + "-" + dropped[k + 1..]
  {
    var lower := ToLower(name);
    var dropped := lower[..j] + lower[j + 2..];
    assert ReplaceFirst(lower, "& ", "") == dropped;
    assert ReplaceFirst(dropped, " ", "-") == dropped[..k] + "-" + dropped[k + 1..];
  }

  /** When "& " occurs and no space is left once it is removed, the slug is
      just the lower-cased name without those two characters. */
  lemma SlotIdDropsOnly(name: string, j: nat)
    requires IndexOf(ToLower(name), "& ") == Some(j)
    requires IndexOf(ToLower(name)[..j] + ToLower(name)[j + 2..], " ").None?
    ensures SlotId(name) == ToLower(name)[..j] + ToLower(name)[j + 2..]
  {
    var lower := ToLower(name);
    assert ReplaceFirst(lower, "& ", "") == lower[..j] + lower[j + 2..];
  }

  lemma SlotIdOfDow()
    ensures SlotId("DOW") == "dow"
  {
    assert ToLower("DOW") == "dow";
    SpaceFreeSlot("DOW", "dow");
  }

  lemma SlotIdOfNasdaq()
    ensures SlotId("NASDAQ") == "nasdaq"
  {
    assert ToLower("NASDAQ") == "nasdaq";
    SpaceFreeSlot("NASDAQ", "nasdaq");
  }

  lemma SlotIdOfVix()
    ensures SlotId("VIX") == "vix"
  {
    assert ToLower("VIX") == "vix";
    SpaceFreeSlot("VIX", "vix");
  }

  /** "S&P 500": the '&' is followed by 'P', not by a space, so the first
      replace finds nothing; the second turns the space into '-'. */
  lemma SlotIdOfSAndP()
    ensures SlotId("S&P 500") == "s&p-500"
  {
    var lower := ToLower("S&P 500");
    assert lower == "s&p 500";
    forall j | 0 <= j <= |lower|
      ensures !OccursAt(lower, "& ", j)
    {
      if j + 1 < |lower| {
        assert lower[j..j + 2] == [lower[j], lower[j + 1]];
      }
    }
    assert OccursAt(lower, " ", 3);
    forall j | 0 <= j < 3
      ensures !OccursAt(lower, " ", j)
    {
      assert lower[j..j + 1] == [lower[j]];
    }
    assert lower[..3] + "-" + lower[4..] == "s&p-500";
  }

  /** The evidently intended slug: drop every '&' and every space, which
      yields the ids the simulation step looks up. */
  function SlotIdFixed(name: string): (id: string)
    ensures forall i :: 0 <= i < |id| ==> id[i] != '&' && id[i] != ' '
    ensures forall c {:trigger multiset(id)[c]} :: c != '&' && c != ' ' ==> multiset(id)[c] == multiset(ToLower(name))[c]
    ensures Cleaning.IsSubsequence(id, ToLower(name))
  {
    Cleaning.RemoveAll(ToLower(name), {'&', ' '})
  }

  lemma SlotIdFixedWithoutSpace(name: string)
    requires forall i :: 0 <= i < |name| ==> name[i] != ' ' && name[i] != '&'
    ensures SlotIdFixed(name) == ToLower(name)
  {
    Cleaning.RemoveAllKeeps(ToLower(name), {'&', ' '});
  }

  lemma SlotIdFixedOfSAndP()
    ensures SlotIdFixed("S&P 500") == "sp500"
  {
    var lower := ToLower("S&P 500");
    assert lower == "s&p 500";
    StripSAndP(lower);
  }

  lemma StripSAndP(lower: string)
    requires lower == "s&p 500"
    ensures Cleaning.RemoveAll(lower, {'&', ' '}) == "sp500"
  {
    var drop := {'&', ' '};
    assert lower == "s&p " + "500";
    Cleaning.RemoveAllAppend("s&p ", "500", drop);
    Cleaning.RemoveAllKeeps("500", drop);
    StripSAndPPrefix("s&p ");
  }

  lemma StripSAndPPrefix(prefix: string)
    requires prefix == "s&p "
    ensures Cleaning.RemoveAll(prefix, {'&', ' '}) == "sp"
  {
    assert prefix == "s&" + "p ";
    Cleaning.RemoveAllAppend("s&", "p ", {'&', ' '});
    StripPair('s', '&');
    StripPair('p', ' ');
  }

  /** A kept character followed by a dropped one strips to the first. */
  lemma StripPair(a: char, b: char)
    requires a != '&' && a != ' ' && (b == '&' || b == ' ')
    ensures Cleaning.RemoveAll([a, b], {'&', ' '}) == [a]
  {
    var drop := {'&', ' '};
    assert [a, b] == [a] + [b];
    Cleaning.RemoveAllAppend([a], [b], drop);
    Cleaning.RemoveAllKeeps([a], drop);
    Cleaning.RemoveAllDropsChar(b, drop);
  }

  lemma SlotIdFixedOfDow()
    ensures SlotIdFixed("DOW") == "dow"
  {
    SlotIdFixedWithoutSpace("DOW");
    assert ToLower("DOW") == "dow";
  }

  lemma SlotIdFixedOfNasdaq()
    ensures SlotIdFixed("NASDAQ") == "nasdaq"
  {
    SlotIdFixedWithoutSpace("NASDAQ");
    assert ToLower("NASDAQ") == "nasdaq";
  }

  lemma SlotIdFixedOfVix()
    ensures SlotIdFixed("VIX") == "vix"
  {
    SlotIdFixedWithoutSpace("VIX");
    assert ToLower("VIX") == "vix";
  }
}

=== FILE: wrappers.dfy ===
/** The optional-value type shared by the other modules: reading a number
    back out of display text either yields a value or yields nothing. */
module Wrappers {

  datatype Option<+T> = None | Some(value: T)
}
